=== FILE: README.md ===
# Spice market agents in Dafny

A model of the two JADE agents of a spice-market simulation and of the
content strings they exchange.

- **Merchant** (`src/MerchantAgent.java`). It keeps a stock table and a
  price table over four spices: Cravinho, Cinnamon, Nutmeg and Cardamom. It
  also keeps the pending market event and the round numbers it was told.
  Its message handler does four things:
  - answers `STOCK` requests, first applying a pending storm;
  - reads the `PRICES,…|EVENT,…` broadcast;
  - negotiates one trade with the other merchants (propose, answer the
    others' proposals, then finalise on an accept);
  - answers the broadcast's sender with a sale decision, `HOLD` or
    `spice,q,q*price;…`.
- **Coordinator** (`src/BazaarAgent.java`). It sets its opening prices and
  builds its roster from the directory search. Its round behaviour asks
  every participant for its stock. It then adds up the four quantities of
  every INFORM reply until it has counted one reply per participant.

## Files

- `java_int.dfy`: Java `int` as `Int32`. Overflow wraps (`Wrap`), `*` is
  `Mul`, and `/ 2` truncates (`HalfTowardZero`).
- `java_text.dfy`: the `String` operations the code relies on:
  - `split` with a one-character pattern and limit 0, which drops trailing
    empty fields;
  - `trim`, `replace(pat, "")` and `startsWith`;
  - `Integer.toString` and `Integer.parseInt`.
- `spices.dfy`: the spices and the four-entry `Table` that stands for each
  `HashMap<String, Integer>`. Also the `Stream.max` fold, which keeps the
  first of equal elements.
- `messages.dfy`: performatives, incoming messages and outgoing sends. Also
  the `Outcome` of a step: completed, stalled in a `blockingReceive` because
  the inbox ran out, or threw.
- `protocol.dfy`: every content format, each with its decoder and a
  round-trip lemma.
- `merchant.dfy`: the `MerchantAgent` class and the functions that specify
  its methods.
- `bazaar.dfy`: the `BazaarAgent` and `RoundBehaviour` classes and the
  collection loop.

## How the model reads the Java

- **Exceptions.** Where Java throws, the model returns `None`, `Failed` or
  the `Threw` outcome. That covers:
  - `Integer.parseInt` on bad text;
  - a short `split` (index out of bounds);
  - the unboxing of a `get` on an unknown spice name.
- **Blocking receives.** Each `blockingReceive` takes the next message of a
  given inbox sequence. Running out of messages is the `Stalled` outcome.
  Sends are appended to an output list.
- **Key order.** `HashMap` iteration order is the parameter `order`, a
  permutation of the four spices.
- **Utility model.** The merchant's floating-point utility model is a set
  of given functions (`Utility`):
  - ranks for the two `max` comparisons;
  - the sell quantity;
  - the buy quantity;
  - the accept decision.

  These functions stand for the model evaluated with the prices and event
  in force when they are used, which in `processBroadcast` is after the
  broadcast has been read.
- **Directory search.** Its answer is an input; `None` is the failed search
  that returns `null`. The merchant's own identity is among the merchants
  found, so it receives and answers its own proposal.
- **Extracted loops.** The two receive loops are methods of their own:
  - `Merchant.ReceiveProposals`, the loop of `proposeTrade`;
  - `Bazaar.ReceiveStock`, the loop of `RoundBehaviour.action`.

  Each is proved equal to a recursive specification function
  (`CollectProposals`, `CollectStock`). The lemmas state the loop's
  properties about that function.
- **The handler on values.** The merchant's fields, taken together, are the
  value `Fields`. `StormImpact`, `BroadcastStep` and `HandleStep` give the
  fields and the step that `applyStormImpact`, `processBroadcast` and
  `MessageHandler.action` leave. The methods are proved to end in exactly
  that state, and lemmas state each route's effect on the values.
- **`decideMarketSale`.** The `StringBuilder` is modelled as the list of
  entries appended so far. `Terminated` gives the builder's text, and
  `TrimmedTerminator` shows that deleting the final `;` gives the joined
  entries. The loop updates a local copy of the stock that is written back
  after the loop. No other code runs in between, so the end state is the
  same.

### Behaviour worth noting

The model follows the code in each of these.

- **Several accepts.** The class comment (`src/MerchantAgent.java:15-22`)
  says one accepting merchant is chosen at random when several accept. The
  code reads only the first message after the proposals, and applies the
  trade when that message is an accept.
- **Stock collection.** There is no timeout, and no participant is ever
  removed from the roster.
- **Empty roster.** An empty discovery does not stop the coordinator. The
  round behaviour runs with an empty roster and adds up nothing.
- **Rejections.** A reject carries no content; only an accept echoes the
  proposal.
- **Merchant count.** The merchant counts itself among the merchants whose
  proposals it waits for.
- **Malformed content.** Bad content throws instead of being skipped.
- **`done()`.** It returns `round_counter < round_max`, and `round_counter`
  is never changed. So `done()` is true from the start and the round
  behaviour runs its action exactly once. `Bazaar.RoundBehaviour.constructor`
  states this, and `Action` changes no field.

## Model

| member | source | states |
|---|---|---|
| JavaInt.Wrap | src/MerchantAgent.java:252-253 | the conversion to Java's 32-bit `int` leaves every value that fits unchanged |
| JavaInt.Add | src/BazaarAgent.java:131-134 | Java `int` addition `a + b` gives the exact sum whenever it fits in 32 bits |
| JavaInt.Sub | src/MerchantAgent.java:252 | Java `int` subtraction `a - b` gives the exact difference whenever it fits in 32 bits |
| JavaInt.WrapAddLeft | src/BazaarAgent.java:131-134 | adding to a total that already wrapped gives the same `int` as wrapping the exact sum once, so a chain of `+=` wraps the exact total |
| JavaInt.Mul | src/MerchantAgent.java:380 | `quantityToSell * pricePerUnit` is the exact product whenever that fits in an `int` |
| JavaInt.HalfTowardZero | src/MerchantAgent.java:96 | `currentStock / 2` truncates toward zero: for x >= 0 the result r has 2r <= x <= 2r+1, and for negative x it has 2r-1 <= x <= 2r <= 0 |
| JavaText.SplitOfJoin | src/MerchantAgent.java:245 | `split(",")` of fields joined by `,` gives the fields back when none holds the separator and the last is not empty |
| JavaText.ParseIntOfToString | src/BazaarAgent.java:131-134 | `Integer.parseInt` reads back every `int` that `Integer.toString` writes, negative values included |
| Spices.FromName | src/MerchantAgent.java:252-253 | a `get` on the spice-keyed map finds exactly the four spice names; any other key gives null |
| Spices.Table.Put | src/MerchantAgent.java:97 | `put(s, v)` sets the entry for s to v and keeps every other entry |
| Spices.MaxBy | src/MerchantAgent.java:267-272 | `stream().max(...)` is empty exactly for an empty stream; otherwise it returns a candidate whose rank is at least every candidate's rank |
| Spices.MaxByKeepsFirst | src/MerchantAgent.java:269-270 | among candidates of equal rank, `max` keeps the one met first in iteration order |
| Protocol.EncodeStock | src/MerchantAgent.java:86-91 | the stock reply splits on `,` into exactly the four quantities in the fixed order Cravinho, Cinnamon, Nutmeg, Cardamom |
| Protocol.StockRoundTrip | src/BazaarAgent.java:129-134 | the coordinator's split and four `parseInt`s read every stock reply back as the merchant's four quantities |
| Protocol.EncodeTrade | src/MerchantAgent.java:200 | a real proposal `sell,q,buy,q` is never the `NO_TRADE` text |
| Protocol.TradeRoundTrip | src/MerchantAgent.java:245-249 | splitting a proposal on `,` and parsing fields 1 and 3 gives back the trade that was proposed |
| Protocol.DecodeAllOf | src/MerchantAgent.java:382-387 | the parts decode together to a list of entries exactly when there are as many parts as entries and each part decodes to the matching entry |
| Protocol.EntriesRoundTrip | src/MerchantAgent.java:382-387 | every encoded entry of a decision decodes back to that entry, in order |
| Protocol.SaleRoundTrip | src/MerchantAgent.java:382-402 | each sale decision reads back as the entries it was built from, and `HOLD` as no entries |
| Protocol.SaleIsNotHold | src/MerchantAgent.java:393-402 | a decision with at least one entry is never the text `HOLD` |
| Protocol.ClassifyEvent | src/MerchantAgent.java:342-355 | a storm text is a storm and a trade-route text a trade route, each with a target word; a Sultan's-tax text is the tax with no target; a text with none of the three prefixes is no event; it throws exactly when a storm text has fewer than 4 words or a trade-route text fewer than 9 |
| Protocol.PrefixesExclusive | src/MerchantAgent.java:342-351 | no event text starts with two of the storm, tax and trade-route prefixes, so the order of the tests does not matter |
| Protocol.StormAnnouncement | src/MerchantAgent.java:342-344 | a text starting "A storm destroyed" is a storm whose target is its 4th space-separated word |
| Protocol.TradeRouteAnnouncement | src/MerchantAgent.java:349-351 | a text starting "A new trade route" is a trade route whose target is its 9th word |
| Protocol.PricesPartRoundTrip | src/MerchantAgent.java:331-339 | removing every `PRICES,`, trimming, splitting on `,` and parsing four trimmed fields gives the announced prices back |
| Protocol.BroadcastRoundTrip | src/MerchantAgent.java:330-355 | a broadcast whose event text has no `\|`, no `EVENT,` and no surrounding blanks decodes to its four prices and that text's classification; when classification fails, decoding fails |
| Protocol.RoundNumberRoundTrip | src/MerchantAgent.java:309 | `parseInt(content.split("=")[1])` reads back the number in `<prefix>=<n>` |
| Merchant.StormStock | src/MerchantAgent.java:96 | `Math.max(0, s / 2)` is never negative and halves a non-negative stock rounding down (15 gives 7) |
| Merchant.TradeEffect | src/MerchantAgent.java:252-253 | finalising a trade takes sellQty from the sold spice and adds buyQty to the bought one, with `int` arithmetic; every other spice is unchanged |
| Merchant.TradeTotal | src/MerchantAgent.java:252-253 | without overflow, a trade changes the total stock by buyQty - sellQty |
| Merchant.InStock | src/MerchantAgent.java:268 | the filter keeps exactly the spices with positive stock |
| Merchant.Others | src/MerchantAgent.java:277 | the filter keeps exactly the spices other than the one to sell |
| Merchant.ChooseSpiceToSell | src/MerchantAgent.java:266-273 | null exactly when no spice has positive stock; otherwise an in-stock spice of highest sell rank, and no in-stock spice of the same rank comes before it in key order |
| Merchant.ChooseSpiceToBuy | src/MerchantAgent.java:275-280 | always finds a spice, never the one to sell; it has the highest hold rank among the others, and none of them of the same rank comes before it in key order |
| Merchant.ChooseProposal | src/MerchantAgent.java:179-200 | `NO_TRADE` exactly when no spice is in stock; otherwise it sells the spice `chooseSpiceToSell` picks, for the quantity the sell model gives, and buys the spice `chooseSpiceToBuy` picks for that one, for the quantity the trade ratio gives to that sale |
| Merchant.ProposalSells | src/MerchantAgent.java:179-198 | the proposal sells an in-stock spice of the highest sell rank, the first in key order among in-stock spices of that rank |
| Merchant.ProposalBuys | src/MerchantAgent.java:179-198 | the proposal buys a spice other than the one sold, of the highest hold rank among those, the first in key order among them |
| Merchant.FilterMembers | src/MerchantAgent.java:266-280 | a `filter` keeps exactly the spices that pass its test |
| Merchant.FilterPosition | src/MerchantAgent.java:266-280 | a spice the `filter` keeps has a position in its output, and everything kept up to there comes from the spices up to it in key order |
| Merchant.FilterMaxFirst | src/MerchantAgent.java:266-280 | after a `filter`, `max` keeps, among the kept spices of its rank, the one that comes first in key order |
| Merchant.HandleTradeProposal | src/MerchantAgent.java:407-435 | no reply to `NO_TRADE`; an exception when the proposal does not parse; otherwise one reply to the proposer, an accept echoing the content verbatim or a reject without content |
| Merchant.CollectLeavesSuffix | src/MerchantAgent.java:215-221 | the loop only takes messages from the front of the inbox |
| Merchant.CollectCounts | src/MerchantAgent.java:215-221 | the loop counts only PROPOSE messages: exactly `numberOfMerchants` of them when it ends normally, never more |
| Merchant.CollectEndsOnProposal | src/MerchantAgent.java:215-221 | the loop stops right after the last PROPOSE it needs |
| Merchant.CollectStalls | src/MerchantAgent.java:215-216 | the loop blocks for ever only when fewer than `numberOfMerchants` PROPOSE messages arrive |
| Merchant.CollectReplies | src/MerchantAgent.java:217-219 | at most one reply goes out per PROPOSE taken |
| Merchant.CollectAnswers | src/MerchantAgent.java:215-221 | the replies sent while collecting are exactly `handleTradeProposal`'s replies to the PROPOSE messages taken, in order, whichever way the loop ends; nothing else is sent |
| Merchant.OnlyProposals | src/MerchantAgent.java:217 | the PROPOSE messages of an inbox number as many as the loop counts |
| Merchant.CollectIgnoresOthers | src/MerchantAgent.java:217 | messages of other performatives change neither the replies nor how the loop ends |
| Merchant.ReceiveProposals | src/MerchantAgent.java:213-221 | the counting `while` loop ends, sends and leaves the inbox exactly as `CollectProposals` specifies |
| Merchant.NegotiateProposal | src/MerchantAgent.java:178-237 | the first send is the proposal to every merchant found; it is `NO_TRADE` exactly when nothing is in stock; after `NO_TRADE` no further answer is awaited and the stock is kept |
| Merchant.NegotiateAwaitsOneAnswer | src/MerchantAgent.java:213-236 | every send after the proposal is an answer to a collected PROPOSE; after a real proposal and a completed collection exactly one more message is received: none stalls, a non-accept keeps the stock, an accept that does not parse throws with the stock kept; an unfinished collection ends the call as it ended |
| Merchant.AcceptedProposalIsApplied | src/MerchantAgent.java:223-229 | an accept echoing the merchant's own proposal, arriving right after the proposals, applies exactly that trade to the stock |
| Merchant.NegotiateStockFrame | src/MerchantAgent.java:223-237 | only an accept received after a real proposal changes the stock, and then by the trade it carries |
| Merchant.SaleEntriesAreTheSales | src/MerchantAgent.java:375-391 | one entry per spice with a positive quantity, carrying that quantity and `quantity * price`, and no other entries; no spice has two entries, and the entries sit at strictly increasing positions of the key order |
| Merchant.HoldLeavesStock | src/MerchantAgent.java:393-395 | the decision is `HOLD` exactly when no spice has a positive quantity, and then the stock is unchanged |
| Merchant.SaleKeepsStockNonNegative | src/MerchantAgent.java:389 | given quantities that never exceed the stock, each sold spice loses exactly its quantity, the rest are untouched, and no non-negative stock turns negative |
| Merchant.StockAfterSale | src/MerchantAgent.java:375-390 | every spice's new stock is its old stock less its quantity when that is positive |
| Merchant.SaleStockStep | src/MerchantAgent.java:376-390 | one iteration sells the next spice of the key order; a spice's quantity is computed from its untouched starting stock |
| Merchant.SaleStockDone | src/MerchantAgent.java:375-391 | after visiting every key once, the loop's stock is the stock after the sale |
| Merchant.SalesUpToSound | src/MerchantAgent.java:375-387 | every entry recorded for the first i keys names one of those keys with its positive quantity and `quantity * price` |
| Merchant.SalesUpToComplete | src/MerchantAgent.java:375-387 | every one of the first i keys with a positive quantity has an entry |
| Merchant.SalesUpToEmbeds | src/MerchantAgent.java:375-387 | the entries for the first i keys sit at strictly increasing positions below i of the key order, each position holding the entry's spice |
| Merchant.SaleProgressStep | src/MerchantAgent.java:376-390 | one iteration appends the next key's entry and takes its quantity from the stock when the quantity is positive, and changes nothing otherwise, keeping the loop in step with the specification |
| Merchant.SaleProgressDone | src/MerchantAgent.java:375-391 | once every key is visited, the recorded entries are the sale entries and the stock is the stock after the sale |
| Merchant.SellInOrder | src/MerchantAgent.java:375-391 | the `for` loop records exactly the sale entries, sets `isSelling` exactly when it records one, and leaves the stock after the sale |
| Merchant.TrimmedTerminator | src/MerchantAgent.java:382-400 | the builder ends in `;`, and deleting that character leaves the entries joined by `;` |
| Merchant.TerminatedIsJoin | src/MerchantAgent.java:382-387 | appending each entry followed by `;` builds the join of the entries plus one final `;` |
| Merchant.RoutesOfRequests | src/MerchantAgent.java:295-307 | the coordinator's `STOCK` request and a price broadcast in the reference format reach the matching branches of the handler |
| Merchant.RoutesOfRoundNumbers | src/MerchantAgent.java:308-322 | `TOTAL_ROUNDS=<n>` and `CURRENT_ROUND=<n>` reach their branches |
| Merchant.StormImpactEffect | src/MerchantAgent.java:93-102 | a pending storm on a spice halves only that spice's stock, to `max(0, s/2)`, and clears the event; prices and round numbers stay; without a storm nothing changes; a storm on a name that is no spice throws |
| Merchant.BroadcastStepEffect | src/MerchantAgent.java:329-369 | a broadcast that does not decode throws and changes nothing; one that decodes sets the prices and the pending event to what it carries, keeps the round numbers, and after a completed negotiation sends the sale decision taken at the new prices on the stock the negotiation left |
| Merchant.HandleStockRequest | src/MerchantAgent.java:295-306 | the storm is applied before the reply, and the reply carries the stock it leaves, which the coordinator reads back; prices and round numbers stay; a throw changes nothing and sends nothing |
| Merchant.HandleRoundNumber | src/MerchantAgent.java:308-322 | `TOTAL_ROUNDS=<n>` sets only the total and `CURRENT_ROUND=<n>` only the current round, each acknowledged with `ACK`; stock, prices and event stay; content that does not parse throws and changes nothing |
| Merchant.HandleNothing | src/MerchantAgent.java:292-327 | no message, or one no branch matches, changes nothing and sends nothing |
| Merchant.MerchantAgent.constructor | src/MerchantAgent.java:70-84 | initial stock 10/15/20/12, all prices 0, no event pending, round numbers 0 |
| Merchant.MerchantAgent.StockString | src/MerchantAgent.java:86-91 | the stock string reads back, with the coordinator's parsing, as the current stock |
| Merchant.MerchantAgent.ApplyStormImpact | src/MerchantAgent.java:93-102 | the merchant's fields end as `StormImpact` gives, and it throws exactly when that is None; on a throw nothing changes |
| Merchant.MerchantAgent.FinalizeTrade | src/MerchantAgent.java:240-256 | an accepted trade is applied to this merchant's stock only; content that does not parse throws |
| Merchant.MerchantAgent.ReadBroadcast | src/MerchantAgent.java:330-355 | the four prices and the event fields are overwritten with what the broadcast decodes to; a broadcast that does not decode throws |
| Merchant.MerchantAgent.DecideMarketSale | src/MerchantAgent.java:371-403 | the decision is the encoding of the sale entries, `HOLD` when there are none; the stock becomes the stock after the sale |
| Merchant.MerchantAgent.ProposeTrade | src/MerchantAgent.java:178-238 | the sends, the inbox left and the new stock are those `Negotiate` specifies |
| Merchant.MerchantAgent.ProcessBroadcast | src/MerchantAgent.java:329-369 | the step and every field of the merchant end exactly as `BroadcastStep` gives |
| Merchant.MerchantAgent.Action | src/MerchantAgent.java:292-327 | the step and every field of the merchant end exactly as `HandleStep` gives for the message received |
| Bazaar.FoldIsWrappedSum | src/BazaarAgent.java:131-134 | each counter after adding a run of replies is its start plus the exact column sum, wrapped to 32 bits |
| Bazaar.TotalsAreWrappedSums | src/BazaarAgent.java:107-134 | from zero, each total is the sum of its column over the replies read, the exact sum whenever it fits in an `int` |
| Bazaar.InformsFilters | src/BazaarAgent.java:126 | the replies the loop counts are exactly the INFORM messages |
| Bazaar.GatherCounts | src/BazaarAgent.java:124-127 | when the loop ends it has taken exactly `activeParticipants.size()` INFORM replies and read as many stock tables |
| Bazaar.GatherEnough | src/BazaarAgent.java:124-127 | the loop ends only when at least that many INFORM replies arrived |
| Bazaar.GatherReadsOne | src/BazaarAgent.java:126-134 | the i-th table read is the parse of the i-th INFORM reply |
| Bazaar.GatherReadsCounted | src/BazaarAgent.java:123-135 | when the loop ends, the tables it read are the parses of the first `activeParticipants.size()` INFORM replies, in order |
| Bazaar.GatherLeavesSuffix | src/BazaarAgent.java:123-127 | the loop only takes messages from the front of the inbox |
| Bazaar.GatherEndsOnInform | src/BazaarAgent.java:123-127 | the loop stops right after the INFORM reply that completes the count |
| Bazaar.GatherStalls | src/BazaarAgent.java:124-125 | the loop never reads more tables than the roster size, and blocks for ever only when fewer INFORM replies arrive |
| Bazaar.GatherIgnoresOthers | src/BazaarAgent.java:126 | messages of other performatives change neither how the loop ends nor what it adds up |
| Bazaar.GatherReplies | src/BazaarAgent.java:123-135 | when the inbox starts with one well-formed INFORM reply per participant, the loop ends after exactly those replies and reads exactly their tables |
| Bazaar.CoordinatorReadsStocks | src/BazaarAgent.java:123-135 | when every participant answers with the merchant's stock string, the coordinator reads back exactly the merchants' stocks |
| Bazaar.TracksSkip | src/BazaarAgent.java:126 | a message that is not INFORM is taken from the inbox and leaves the counters and the remaining count as they were |
| Bazaar.TracksAdd | src/BazaarAgent.java:126-134 | an INFORM reply that parses adds its four quantities to the counters and lowers the remaining count by one |
| Bazaar.TracksThrow | src/BazaarAgent.java:129-134 | an INFORM reply that does not parse ends the loop with an exception after that message, with the counters as they were |
| Bazaar.TracksStall | src/BazaarAgent.java:124-125 | an empty inbox while replies are still missing blocks the loop for ever, with the counters as they were |
| Bazaar.TracksDone | src/BazaarAgent.java:124 | when no reply is missing the loop ends normally, holding the column totals of the tables read |
| Bazaar.ReceiveStock | src/BazaarAgent.java:107-136 | the loop over four counters started at zero ends as `CollectStock` does, holding the column totals of the tables it read |
| Bazaar.BazaarAgent.constructor | src/BazaarAgent.java:40-43 | no prices and no events before `setup`; the roster, `null` in Java until `setup`, is empty |
| Bazaar.BazaarAgent.IniciatePrices | src/BazaarAgent.java:72-77 | the opening prices are Cravinho 20, Cinnamon 5, Nutmeg 15, Cardamom 10 |
| Bazaar.BazaarAgent.Setup | src/BazaarAgent.java:46-70 | opening prices set; the participants are the agents found, in discovery order, when the search finds some, and none otherwise; the round behaviour is scheduled |
| Bazaar.RoundBehaviour.constructor | src/BazaarAgent.java:103-104 | `round_counter` is 0 and `round_max` 10, so `done()` holds from the start |
| Bazaar.RoundBehaviour.Action | src/BazaarAgent.java:106-144 | one `STOCK` request to every participant, then the collection loop from four zero totals; with an empty roster nothing is read and the totals stay zero |

## Left out

- JADE plumbing:
  - directory registration and search (its answer is an input);
  - `send`, `receive`, `blockingReceive`, `block` and `createReply`;
  - behaviour scheduling and `takeDown`.

  The bazaar's `reply != null` test is left out because a `blockingReceive`
  in this model always yields a message.
- The floating-point utility model is left out: `calculateRawUtility*`,
  `predictExpectedPrice`, `normalizeUtility*`, `decideQuantity*`,
  `evaluateTradeProposal` and `adjustTradeRatio`. It is double arithmetic,
  taken here as given functions.
- The risk-factor argument parsing (`Double.parseDouble`) is left out.
- `src/BazaarContainer.java` is not part of this model.
- The empty round loop in `setup` (with `TOTAL_ROUNDS`) and the empty
  `GameStartBehaviour` have no effect on state. The coordinator's `events`
  list is never read or written after construction.
- Console output is left out. This includes the four totals the
  coordinator prints; the model returns them in `RoundStep` instead.
- Interleaving between concurrently running agents is left out. Each step
  is a function of the inbox it is given.
- `Merchant.MerchantAgent.ReadBroadcast`: Java writes the prices one `put`
  at a time and classifies the event afterwards. A failure part-way
  therefore leaves some prices already overwritten. For a storm or trade
  route whose text lacks the target word, Java has also already set
  `nextRoundEvent` to `STORM` or `TRADE_ROUTE` before the lookup throws. The
  model changes nothing on a broadcast that does not decode.
- `Merchant.MerchantAgent.FinalizeTrade`: when the sold spice's name is
  known but the bought spice's is not, Java has already written the reduced
  entry before the `NullPointerException`. The model leaves the stock
  unchanged on every content that does not decode.
- `Bazaar.ReceiveStock`: when a reply's later field fails to parse, Java has
  already added the earlier fields to the local counters. The model's tally
  after an exception keeps the counters from before that reply. The counters
  are locals of `action`, so nothing outside the method sees the difference.
- `Merchant.MerchantAgent.ProcessBroadcast`: after an exception the step
  ends with the `Threw` outcome, and the agent's later fate is not
  modelled.
- `Merchant.MerchantAgent.Action`: a message whose content is `null` is not
  modelled. Every content here is a string.
- `Protocol.DecodeSale`, `Protocol.EncodeBroadcast` and
  `Protocol.EncodeRoundNumber` are reference definitions of the formats,
  written from what the merchant's readers expect. Neither agent's code
  produces a `PRICES,…|EVENT,…` broadcast or a `TOTAL_ROUNDS=`/`CURRENT_ROUND=`
  notice, and neither reads a sale decision. The sender of those messages
  is not part of this model. The definitions exist so that the readers in
  the merchant have a partner to round-trip with.
- `Bazaar.BazaarAgent.constructor`: Java leaves `activeParticipants` `null`
  until `setup` assigns it; the model starts with an empty roster. `Setup`
  assigns the roster on every path before the round behaviour reads it.
- `JavaText.ParseInt`: only ASCII digits are accepted. Java also accepts
  other Unicode decimal digits.

=== FILE: bazaar.dfy ===
/**
 * The coordinator agent: its initial price list, the roster of merchants it
 * found, and the round behaviour that asks every merchant for its stock and
 * adds the replies up column by column.
 */
module Bazaar {
  import opened Wrappers
  import opened JavaInt
  import opened Spices
  import opened Messages
  import opened Protocol

  /** The four stock totals at the start of a round. */
  const Zero: Table := Table(0, 0, 0, 0)

  /** The coordinator's opening prices. */
  const OpeningPrices: Table := Table(20, 5, 15, 10)

  /** `round_max` of the round behaviour. */
  const RoundMax: Int32 := 10

  /** The four `x_stock += n` statements: Java `int` addition in each column. */
  function AddColumns(totals: Table, reply: Table): Table {
    Table(Add(totals.cravinho, reply.cravinho), Add(totals.cinnamon, reply.cinnamon),
          Add(totals.nutmeg, reply.nutmeg), Add(totals.cardamom, reply.cardamom))
  }

  /** The four totals after adding the readings, in order, to the given totals. */
  function FoldColumns(totals: Table, readings: seq<Table>): Table
    decreases |readings|
  {
    if readings == [] then totals else FoldColumns(AddColumns(totals, readings[0]), readings[1..])
  }

  /** The exact sum of one column over a sequence of readings. */
  function ColumnTotal(readings: seq<Table>, s: Spice): int {
    if readings == [] then 0 else readings[0].Get(s) as int + ColumnTotal(readings[1..], s)
  }

  /**
   * Each total is its starting value plus the exact column sum, wrapped to
   * 32 bits, whatever overflowed on the way.
   */
  lemma {:induction false} FoldIsWrappedSum(totals: Table, readings: seq<Table>, s: Spice)
    ensures FoldColumns(totals, readings).Get(s) == Wrap(totals.Get(s) as int + ColumnTotal(readings, s))
    decreases |readings|
  {
    if readings != [] {
      var first, next := readings[0], AddColumns(totals, readings[0]);
      var sum := totals.Get(s) as int + first.Get(s) as int;
      assert next.Get(s) == Wrap(sum) by {
        match s
        case Cravinho =>
        case Cinnamon =>
        case Nutmeg =>
        case Cardamom =>
      }
      assert FoldColumns(totals, readings) == FoldColumns(next, readings[1..]);
      assert ColumnTotal(readings, s) == first.Get(s) as int + ColumnTotal(readings[1..], s);
      FoldIsWrappedSum(next, readings[1..], s);
      WrapAddLeft(sum, ColumnTotal(readings[1..], s));
    }
  }

  /** From zero, a total is the exact column sum wrapped to 32 bits; the plain sum when that fits in an `int`. */
  lemma TotalsAreWrappedSums(readings: seq<Table>, s: Spice)
    ensures FoldColumns(Zero, readings).Get(s) == Wrap(ColumnTotal(readings, s))
    ensures InRange(ColumnTotal(readings, s)) ==> FoldColumns(Zero, readings).Get(s) == ColumnTotal(readings, s)
  {
    FoldIsWrappedSum(Zero, readings, s);
  }

  // ---------------------------------------------------------------- the collection loop

  /** How the collection loop ends: its outcome, the stock readings it added up, and the unread inbox. */
  datatype Gathered = Gathered(outcome: Outcome, readings: seq<Table>, rest: seq<Message>)

  /**
   * The collection loop of `RoundBehaviour.action`: receive until n INFORM
   * replies have been counted, each read as a stock reply with read; any
   * other message is taken and dropped. A reply that read rejects throws.
   */
  function CollectStock(inbox: seq<Message>, n: nat, read: string -> Option<Table>): (r: Gathered)
    ensures |r.rest| <= |inbox|
    decreases |inbox|
  {
    if n == 0 then Gathered(Completed, [], inbox)
    else if inbox == [] then Gathered(Stalled, [], [])
    else if inbox[0].performative != Inform then CollectStock(inbox[1..], n, read)
    else
      match read(inbox[0].content)
      case None => Gathered(Threw, [], inbox[1..])
      case Some(t) =>
        var r := CollectStock(inbox[1..], n - 1, read);
        r.(readings := [t] + r.readings)
  }

  /** The INFORM messages of ms, in order. */
  function Informs(ms: seq<Message>): (r: seq<Message>)
    ensures |r| <= |ms|
  {
    if ms == [] then []
    else (if ms[0].performative == Inform then [ms[0]] else []) + Informs(ms[1..])
  }

  /** Informs keeps exactly the INFORM messages of ms. */
  lemma {:induction false} InformsFilters(ms: seq<Message>)
    ensures forall m :: m in Informs(ms) <==> m in ms && m.performative == Inform
  {
    if ms != [] {
      InformsFilters(ms[1..]);
      assert ms == [ms[0]] + ms[1..];
    }
  }

  lemma CollectFront(inbox: seq<Message>, n: nat, read: string -> Option<Table>)
    requires n > 0 && inbox != []
    ensures var r := CollectStock(inbox, n, read);
      var head := inbox[0];
      var d := if head.performative == Inform then 1 else 0;
      var tail := CollectStock(inbox[1..], n - d, read);
      if head.performative == Inform && read(head.content).None? then r == Gathered(Threw, [], inbox[1..])
      else if d == 1 then r == tail.(readings := [read(head.content).value] + tail.readings)
      else r == tail
  {
  }

  lemma InformsFront(ms: seq<Message>, k: nat)
    requires 0 < k <= |ms|
    ensures Informs(ms[..k]) == (if ms[0].performative == Inform then [ms[0]] else []) + Informs(ms[1..][..k - 1])
  {
    assert ms[..k] == [ms[0]] + ms[1..][..k - 1];
  }

  /** When the loop completes it has taken exactly n INFORM replies and holds exactly n readings. */
  lemma {:induction false} GatherCounts(inbox: seq<Message>, n: nat, read: string -> Option<Table>)
    ensures var r := CollectStock(inbox, n, read);
      r.outcome == Completed ==> |Informs(inbox[..|inbox| - |r.rest|])| == n && |r.readings| == n
    decreases |inbox|
  {
    var r := CollectStock(inbox, n, read);
    var k := |inbox| - |r.rest|;
    if n == 0 {
      assert inbox[..k] == [];
    } else if inbox != [] {
      var head := inbox[0];
      if head.performative == Inform {
        match read(head.content)
        case None =>
        case Some(t) =>
          var tail := CollectStock(inbox[1..], n - 1, read);
          assert r == tail.(readings := [t] + tail.readings);
          GatherCounts(inbox[1..], n - 1, read);
          InformsFront(inbox, k);
      } else {
        var tail := CollectStock(inbox[1..], n, read);
        assert r == tail;
        GatherCounts(inbox[1..], n, read);
        InformsFront(inbox, k);
      }
    }
  }

  /** The loop completes only when the inbox holds at least n INFORM messages. */
  lemma {:induction false} GatherEnough(inbox: seq<Message>, n: nat, read: string -> Option<Table>)
    ensures CollectStock(inbox, n, read).outcome == Completed ==> n <= |Informs(inbox)|
    decreases |inbox|
  {
    if n > 0 && inbox != [] {
      var head := inbox[0];
      var d := if head.performative == Inform then 1 else 0;
      CollectFront(inbox, n, read);
      GatherEnough(inbox[1..], n - d, read);
      assert Informs(inbox) == (if d == 1 then [head] else []) + Informs(inbox[1..]);
    }
  }

  /** The i-th reading of a completed loop is what read made of the i-th INFORM message of the inbox. */
  lemma {:induction false} GatherReadsOne(inbox: seq<Message>, n: nat, read: string -> Option<Table>, i: nat)
    requires i < n
    ensures var r, replies := CollectStock(inbox, n, read), Informs(inbox);
      r.outcome == Completed && i < |replies| && i < |r.readings| ==> read(replies[i].content) == Some(r.readings[i])
    decreases |inbox|, 1
  {
    if inbox != [] {
      if inbox[0].performative == Inform {
        ReadsAfterInform(inbox, n, read, i);
      } else {
        ReadsAfterOther(inbox, n, read, i);
      }
    }
  }

  /** `GatherReadsOne` for an inbox that starts with an INFORM reply. */
  lemma {:induction false} ReadsAfterInform(inbox: seq<Message>, n: nat, read: string -> Option<Table>, i: nat)
    requires i < n && inbox != [] && inbox[0].performative == Inform
    ensures var r, replies := CollectStock(inbox, n, read), Informs(inbox);
      r.outcome == Completed && i < |replies| && i < |r.readings| ==> read(replies[i].content) == Some(r.readings[i])
    decreases |inbox|, 0
  {
    var head := inbox[0];
    var r := CollectStock(inbox, n, read);
    if read(head.content).Some? {
      var tail := CollectStock(inbox[1..], n - 1, read);
      var replies, tailReplies := Informs(inbox), Informs(inbox[1..]);
      assert r.readings == [read(head.content).value] + tail.readings && r.outcome == tail.outcome;
      assert replies == [head] + tailReplies;
      if i > 0 && r.outcome == Completed && i < |replies| && i < |r.readings| {
        GatherReadsOne(inbox[1..], n - 1, read, i - 1);
        assert replies[i] == tailReplies[i - 1];
        assert r.readings[i] == tail.readings[i - 1];
      }
    }
  }

  /** `GatherReadsOne` for an inbox that starts with a message of another performative. */
  lemma {:induction false} ReadsAfterOther(inbox: seq<Message>, n: nat, read: string -> Option<Table>, i: nat)
    requires i < n && inbox != [] && inbox[0].performative != Inform
    ensures var r, replies := CollectStock(inbox, n, read), Informs(inbox);
      r.outcome == Completed && i < |replies| && i < |r.readings| ==> read(replies[i].content) == Some(r.readings[i])
    decreases |inbox|, 0
  {
    assert CollectStock(inbox, n, read) == CollectStock(inbox[1..], n, read);
    assert Informs(inbox) == Informs(inbox[1..]);
    GatherReadsOne(inbox[1..], n, read, i);
  }

  /**
   * The loop counts only INFORM replies: when it completes it has taken
   * exactly n of them and holds exactly n readings, the i-th being what read
   * made of the i-th INFORM message of the inbox.
   */
  lemma GatherReadsCounted(inbox: seq<Message>, n: nat, read: string -> Option<Table>)
    ensures var r, replies := CollectStock(inbox, n, read), Informs(inbox);
      r.outcome == Completed ==>
        && |Informs(inbox[..|inbox| - |r.rest|])| == n && |r.readings| == n && n <= |replies|
        && forall i :: 0 <= i < n ==> read(replies[i].content) == Some(r.readings[i])
  {
    GatherCounts(inbox, n, read);
    GatherEnough(inbox, n, read);
    forall i | 0 <= i < n {
      GatherReadsOne(inbox, n, read, i);
    }
  }

  /** The loop only takes messages from the front of the inbox. */
  lemma {:induction false} GatherLeavesSuffix(inbox: seq<Message>, n: nat, read: string -> Option<Table>)
    ensures var r := CollectStock(inbox, n, read);
      r.rest == inbox[|inbox| - |r.rest|..]
    decreases |inbox|
  {
    if n > 0 && inbox != [] {
      CollectFront(inbox, n, read);
      GatherLeavesSuffix(inbox[1..], if inbox[0].performative == Inform then n - 1 else n, read);
    }
  }

  /** The loop stops right after the n-th INFORM reply: the last message a completed loop took is one. */
  lemma {:induction false} GatherEndsOnInform(inbox: seq<Message>, n: nat, read: string -> Option<Table>)
    ensures var r := CollectStock(inbox, n, read);
      var consumed := inbox[..|inbox| - |r.rest|];
      r.outcome == Completed && n > 0 ==> |consumed| > 0 && consumed[|consumed| - 1].performative == Inform
    decreases |inbox|
  {
    var r := CollectStock(inbox, n, read);
    if n > 0 && inbox != [] && r.outcome == Completed {
      var head := inbox[0];
      var m := if head.performative == Inform then n - 1 else n;
      var tail := CollectStock(inbox[1..], m, read);
      CollectFront(inbox, n, read);
      assert r.rest == tail.rest;
      var k := |inbox| - |tail.rest|;
      var tailConsumed := inbox[1..][..k - 1];
      assert inbox[..k] == [head] + tailConsumed;
      if m == 0 {
        assert tailConsumed == [];
      } else {
        GatherEndsOnInform(inbox[1..], m, read);
      }
    }
  }

  /** The loop never holds more than n readings, and waits for ever only when the inbox has fewer INFORM replies. */
  lemma {:induction false} GatherStalls(inbox: seq<Message>, n: nat, read: string -> Option<Table>)
    ensures var r := CollectStock(inbox, n, read);
      && |r.readings| <= n
      && (r.outcome == Stalled ==> r.rest == [] && |Informs(inbox)| < n)
    decreases |inbox|
  {
    if n > 0 && inbox != [] {
      var head := inbox[0];
      var d := if head.performative == Inform then 1 else 0;
      CollectFront(inbox, n, read);
      GatherStalls(inbox[1..], n - d, read);
      assert Informs(inbox) == (if d == 1 then [head] else []) + Informs(inbox[1..]);
    }
  }

  /** Messages of other performatives change neither how the loop ends nor what it reads. */
  lemma {:induction false} GatherIgnoresOthers(inbox: seq<Message>, n: nat, read: string -> Option<Table>)
    ensures var r, p := CollectStock(inbox, n, read), CollectStock(Informs(inbox), n, read);
      r.outcome == p.outcome && r.readings == p.readings
    decreases |inbox|
  {
    if n > 0 && inbox != [] {
      var head := inbox[0];
      GatherIgnoresOthers(inbox[1..], if head.performative == Inform then n - 1 else n, read);
      if head.performative == Inform {
        assert Informs(inbox) == [head] + Informs(inbox[1..]);
        assert Informs(inbox)[1..] == Informs(inbox[1..]);
      } else {
        assert Informs(inbox) == Informs(inbox[1..]);
      }
    }
  }

  /**
   * When the inbox starts with one INFORM reply per expected merchant, each
   * reading as that merchant's stock, the loop completes after exactly those
   * replies with exactly those stocks.
   */
  lemma {:induction false} GatherReplies(replies: seq<Message>, stocks: seq<Table>, more: seq<Message>, read: string -> Option<Table>)
    requires |replies| == |stocks|
    requires forall i :: 0 <= i < |replies| ==> replies[i].performative == Inform && read(replies[i].content) == Some(stocks[i])
    ensures CollectStock(replies + more, |stocks|, read) == Gathered(Completed, stocks, more)
    decreases |stocks|
  {
    var inbox := replies + more;
    if stocks != [] {
      assert inbox[0] == replies[0];
      assert inbox[1..] == replies[1..] + more;
      GatherReplies(replies[1..], stocks[1..], more, read);
      assert stocks == [stocks[0]] + stocks[1..];
    } else {
      assert inbox == more;
    }
  }

  /** The replies of merchants that each answer the request with their stock, in order. */
  function StockReplies(senders: seq<AgentId>, stocks: seq<Table>): (r: seq<Message>)
    requires |senders| == |stocks|
    ensures |r| == |stocks|
    ensures forall i :: 0 <= i < |stocks| ==> r[i] == Message(Inform, senders[i], EncodeStock(stocks[i]))
  {
    seq(|stocks|, i requires 0 <= i < |stocks| => Message(Inform, senders[i], EncodeStock(stocks[i])))
  }

  /**
   * When every participant answers with the stock reply the merchant writes,
   * the coordinator's loop completes after exactly those replies and reads
   * back exactly the merchants' stocks, so its totals are their column sums.
   */
  lemma CoordinatorReadsStocks(senders: seq<AgentId>, stocks: seq<Table>)
    requires |senders| == |stocks|
    ensures CollectStock(StockReplies(senders, stocks), |stocks|, DecodeStock) == Gathered(Completed, stocks, [])
  {
    var replies := StockReplies(senders, stocks);
    forall i | 0 <= i < |replies| ensures replies[i].performative == Inform && DecodeStock(replies[i].content) == Some(stocks[i]) {
      StockRoundTrip(stocks[i]);
    }
    GatherReplies(replies, stocks, [], DecodeStock);
    assert replies + [] == replies;
  }

  /** What the collection loop leaves: its outcome, the four totals and the unread inbox. */
  datatype Tally = Tally(outcome: Outcome, totals: Table, rest: seq<Message>)

  /**
   * The loop state of `ReceiveStock` agrees with the collection loop g over
   * the whole inbox: what remains of it, run over rest for the m replies
   * still awaited starting from totals, ends as g does with g's totals.
   */
  ghost predicate Tracks(g: Gathered, rest: seq<Message>, m: nat, read: string -> Option<Table>, totals: Table) {
    var tail := CollectStock(rest, m, read);
    && g.outcome == tail.outcome && g.rest == tail.rest
    && FoldColumns(Zero, g.readings) == FoldColumns(totals, tail.readings)
  }

  /** A message of another performative is taken and dropped: the loop stays in step with the same totals. */
  lemma TracksSkip(g: Gathered, rest: seq<Message>, m: nat, read: string -> Option<Table>, totals: Table)
    requires Tracks(g, rest, m, read, totals) && rest != [] && m > 0 && rest[0].performative != Inform
    ensures Tracks(g, rest[1..], m, read, totals)
  {
    CollectFront(rest, m, read);
  }

  /** An INFORM reply that reads as a stock table adds its four quantities to the totals. */
  lemma TracksAdd(g: Gathered, rest: seq<Message>, m: nat, read: string -> Option<Table>, totals: Table)
    requires Tracks(g, rest, m, read, totals) && rest != [] && m > 0
    requires rest[0].performative == Inform && read(rest[0].content).Some?
    ensures Tracks(g, rest[1..], m - 1, read, AddColumns(totals, read(rest[0].content).value))
  {
    CollectFront(rest, m, read);
    var readings := CollectStock(rest[1..], m - 1, read).readings;
    assert ([read(rest[0].content).value] + readings)[1..] == readings;
  }

  /** An INFORM reply that does not read as a stock table ends the loop with an exception and the totals so far. */
  lemma TracksThrow(g: Gathered, rest: seq<Message>, m: nat, read: string -> Option<Table>, totals: Table)
    requires Tracks(g, rest, m, read, totals) && rest != [] && m > 0
    requires rest[0].performative == Inform && read(rest[0].content).None?
    ensures g.outcome == Threw && g.rest == rest[1..] && FoldColumns(Zero, g.readings) == totals
  {
    CollectFront(rest, m, read);
  }

  /** An empty inbox with replies still awaited: the loop blocks for ever with the totals so far. */
  lemma TracksStall(g: Gathered, m: nat, read: string -> Option<Table>, totals: Table)
    requires Tracks(g, [], m, read, totals) && m > 0
    ensures g.outcome == Stalled && g.rest == [] && FoldColumns(Zero, g.readings) == totals
  {
  }

  /** With no reply awaited the loop completes, leaving the rest of the inbox and the totals so far. */
  lemma TracksDone(g: Gathered, rest: seq<Message>, read: string -> Option<Table>, totals: Table)
    requires Tracks(g, rest, 0, read, totals)
    ensures g.outcome == Completed && g.rest == rest && FoldColumns(Zero, g.readings) == totals
  {
  }

  /**
   * The collection loop of `RoundBehaviour.action` over the inbox, with the
   * four counters starting at zero and the replies read with read:
   * it ends as `CollectStock` does, holding the readings' column totals.
   */
  method ReceiveStock(inbox: seq<Message>, n: nat, read: string -> Option<Table>) returns (t: Tally)
    ensures var g := CollectStock(inbox, n, read);
      t == Tally(g.outcome, FoldColumns(Zero, g.readings), g.rest)
  {
    ghost var g := CollectStock(inbox, n, read);
    var cravinhoStock, cinnamonStock, nutmegStock, cardamomStock: Int32 := 0, 0, 0, 0;
    var responsesReceived := 0;
    var rest := inbox;
    while responsesReceived < n
      invariant responsesReceived <= n
      invariant Tracks(g, rest, n - responsesReceived, read, Table(cravinhoStock, cinnamonStock, nutmegStock, cardamomStock))
      decreases |rest|
    {
      ghost var before, m := Table(cravinhoStock, cinnamonStock, nutmegStock, cardamomStock), n - responsesReceived;
      if rest == [] {
        TracksStall(g, m, read, before);
        return Tally(Stalled, Table(cravinhoStock, cinnamonStock, nutmegStock, cardamomStock), []);
      }
      var reply := rest[0];
      if reply.performative != Inform {
        TracksSkip(g, rest, m, read, before);
      } else {
        var stocks := read(reply.content);
        if stocks.None? {
          TracksThrow(g, rest, m, read, before);
          return Tally(Threw, Table(cravinhoStock, cinnamonStock, nutmegStock, cardamomStock), rest[1..]);
        }
        TracksAdd(g, rest, m, read, before);
        responsesReceived := responsesReceived + 1;
        assert n - responsesReceived == m - 1;
        cravinhoStock := Add(cravinhoStock, stocks.value.cravinho);
        cinnamonStock := Add(cinnamonStock, stocks.value.cinnamon);
        nutmegStock := Add(nutmegStock, stocks.value.nutmeg);
        cardamomStock := Add(cardamomStock, stocks.value.cardamom);
        assert Table(cravinhoStock, cinnamonStock, nutmegStock, cardamomStock) == AddColumns(before, stocks.value);
      }
      rest := rest[1..];
    }
    TracksDone(g, rest, read, Table(cravinhoStock, cinnamonStock, nutmegStock, cardamomStock));
    t := Tally(Completed, Table(cravinhoStock, cinnamonStock, nutmegStock, cardamomStock), rest);
  }

  /** What one `RoundBehaviour.action` does: its outcome, its sends, the four totals and the unread inbox. */
  datatype RoundStep = RoundStep(outcome: Outcome, sent: seq<Sent>, totals: Table, rest: seq<Message>)

  // ---------------------------------------------------------------- the agent

  class BazaarAgent {
    var activeParticipants: seq<AgentId>
    var spicePrices: map<Spice, Int32>
    var events: seq<string>

    /** The field initialisers: no price and no event yet, and no roster before `setup`. */
    constructor ()
      ensures activeParticipants == [] && spicePrices == map[] && events == []
    {
      activeParticipants := [];
      spicePrices := map[];
      events := [];
    }

    /** `iniciatePrices`: four `put`s that give every spice its opening price. */
    method IniciatePrices()
      modifies this`spicePrices
      ensures forall s :: s in spicePrices && spicePrices[s] == OpeningPrices.Get(s)
      ensures forall k :: k in old(spicePrices) ==> k in spicePrices
    {
      spicePrices := spicePrices[Cravinho := 20];
      spicePrices := spicePrices[Cinnamon := 5];
      spicePrices := spicePrices[Nutmeg := 15];
      spicePrices := spicePrices[Cardamom := 10];
      forall s ensures s in spicePrices && spicePrices[s] == OpeningPrices.Get(s) {
        match s
        case Cravinho =>
        case Cinnamon =>
        case Nutmeg =>
        case Cardamom =>
      }
    }

    /**
     * `setup`: set the opening prices, then take every agent the directory
     * search found, in the order found, as a participant; None stands for
     * the failed search, which returns null. The round behaviour is what
     * the agent schedules.
     */
    method Setup(discovered: Option<seq<AgentId>>) returns (round: RoundBehaviour)
      modifies this`spicePrices, this`activeParticipants
      ensures forall s :: s in spicePrices && spicePrices[s] == OpeningPrices.Get(s)
      ensures discovered.Some? && |discovered.value| > 0 ==> activeParticipants == discovered.value
      ensures discovered.None? || |discovered.value| == 0 ==> activeParticipants == []
      ensures fresh(round) && round.agent == this && round.roundCounter == 0 && round.Done()
    {
      IniciatePrices();
      ghost var opening := spicePrices;
      activeParticipants := [];
      if discovered.Some? && |discovered.value| > 0 {
        var participantAgents := discovered.value;
        var i := 0;
        while i < |participantAgents|
          invariant 0 <= i <= |participantAgents|
          invariant activeParticipants == participantAgents[..i]
          invariant spicePrices == opening
        {
          activeParticipants := activeParticipants + [participantAgents[i]];
          i := i + 1;
        }
      }
      round := new RoundBehaviour(this);
    }
  }

  class RoundBehaviour {
    /** The coordinator whose roster the behaviour reads. */
    const agent: BazaarAgent
    var roundCounter: Int32
    var roundMax: Int32

    /** `round_counter` starts at 0 and `round_max` at 10, so the behaviour is done from the start. */
    constructor (agent: BazaarAgent)
      ensures this.agent == agent && roundCounter == 0 && roundMax == RoundMax
      ensures Done()
    {
      this.agent := agent;
      roundCounter := 0;
      roundMax := RoundMax;
    }

    /** `done`: nothing ever changes `round_counter`, so this stays true and the behaviour runs once. */
    predicate Done()
      reads this
    {
      roundCounter < roundMax
    }

    /**
     * `action`: one request for the stock, addressed to every participant;
     * then the collection loop over the inbox from four zero totals. Nothing
     * outside its locals changes.
     */
    method Action(inbox: seq<Message>) returns (step: RoundStep)
      ensures step.sent == [Sent(Request, agent.activeParticipants, Some(StockRequest))]
      ensures var g := CollectStock(inbox, |agent.activeParticipants|, DecodeStock);
        step.outcome == g.outcome && step.totals == FoldColumns(Zero, g.readings) && step.rest == g.rest
      ensures agent.activeParticipants == [] ==> step.outcome == Completed && step.totals == Zero && step.rest == inbox
    {
      var requestStock := Sent(Request, agent.activeParticipants, Some(StockRequest));
      var tally := ReceiveStock(inbox, |agent.activeParticipants|, DecodeStock);
      step := RoundStep(tally.outcome, [requestStock], tally.totals, tally.rest);
    }
  }
}

=== FILE: java_int.dfy ===
/**
 * Java's 32-bit `int`: its range, the wrap-around of its arithmetic, and the
 * truncating division by two used for the storm halving.
 */
module JavaInt {

  const MinInt: int := -0x8000_0000
  const MaxInt: int := 0x7fff_ffff
  const Modulus: int := 0x1_0000_0000

  /** A value a Java `int` can hold. */
  type Int32 = x: int | MinInt <= x <= MaxInt

  predicate InRange(x: int) {
    MinInt <= x <= MaxInt
  }

  /** The two's-complement result of a Java `int` operation whose exact result is x. */
  function Wrap(x: int): (r: Int32)
    ensures InRange(x) ==> r == x
  {
    (x - MinInt) % Modulus + MinInt
  }

  /** Java's `a + b` on two `int`s. */
  function Add(a: Int32, b: Int32): (r: Int32)
    ensures InRange(a as int + b as int) ==> r == a as int + b as int
  {
    Wrap(a as int + b as int)
  }

  /** Java's `a - b` on two `int`s. */
  function Sub(a: Int32, b: Int32): (r: Int32)
    ensures InRange(a as int - b as int) ==> r == a as int - b as int
  {
    Wrap(a as int - b as int)
  }

  /** Java's `a * b` on two `int`s. */
  function Mul(a: Int32, b: Int32): (r: Int32)
    ensures InRange(a as int * b as int) ==> r == a as int * b as int
  {
    Wrap(a as int * b as int)
  }

  lemma {:induction false} WrapShift(x: int, k: int)
    ensures Wrap(x + k * Modulus) == Wrap(x)
  {
    var q, r := (x - MinInt) / Modulus, (x - MinInt) % Modulus;
    assert x + k * Modulus - MinInt == (q + k) * Modulus + r;
    ModOfMultiplePlus(q + k, r);
  }

  lemma {:induction false} ModOfMultiplePlus(q: int, r: int)
    requires 0 <= r < Modulus
    ensures (q * Modulus + r) % Modulus == r
  {
  }

  /** Adding to an already wrapped value wraps like adding to the exact value. */
  lemma {:induction false} WrapAddLeft(a: int, b: int)
    ensures Wrap(Wrap(a) + b) == Wrap(a + b)
  {
    var k := (a - MinInt) / Modulus;
    assert Wrap(a) == a - k * Modulus;
    assert Wrap(a) + b == (a + b) + (-k) * Modulus;
    WrapShift(a + b, -k);
  }

  /** Java's `x / 2` on an `int`: division truncating toward zero. */
  function HalfTowardZero(x: Int32): (r: Int32)
    ensures x >= 0 ==> 0 <= r && 2 * r <= x <= 2 * r + 1
    ensures x < 0 ==> r <= 0 && 2 * r - 1 <= x <= 2 * r
  {
    if x >= 0 then x / 2 else var n: nat := -(x as int); -(n / 2)
  }
}

=== FILE: java_text.dfy ===
/**
 * The java.lang.String operations the agents use on message contents, with the
 * edge cases of the Java library: `split` with a one-character pattern and no
 * limit (trailing empty fields are dropped), `trim`, `replace` of every
 * occurrence, `startsWith`, `Integer.toString` and `Integer.parseInt`.
 */
module JavaText {
  import opened Wrappers
  import opened JavaInt

  /** Position of the first c in s. */
  function IndexOf(s: string, c: char): (i: nat)
    requires c in s
    ensures i < |s| && s[i] == c && c !in s[..i]
  {
    if s[0] == c then 0
    else
      var j := IndexOf(s[1..], c);
      assert s[..1 + j] == [s[0]] + s[1..][..j];
      1 + j
  }

  lemma {:induction false} IndexOfAfter(a: string, c: char, b: string)
    requires c !in a
    ensures c in a + [c] + b && IndexOf(a + [c] + b, c) == |a|
  {
    var s := a + [c] + b;
    assert s[|a|] == c;
    if a != [] {
      assert s[1..] == a[1..] + [c] + b;
      IndexOfAfter(a[1..], c, b);
    }
  }

  /** The text between consecutive occurrences of c, empty pieces included. */
  function Pieces(s: string, c: char): (ps: seq<string>)
    ensures |ps| >= 1
    decreases |s|
  {
    if c in s then
      var i := IndexOf(s, c);
      [s[..i]] + Pieces(s[i + 1..], c)
    else [s]
  }

  function DropTrailingEmpty(ps: seq<string>): (r: seq<string>)
    ensures |r| <= |ps| && r == ps[..|r|]
    ensures r != [] ==> r[|r| - 1] != ""
    ensures forall k :: |r| <= k < |ps| ==> ps[k] == ""
  {
    if ps != [] && ps[|ps| - 1] == "" then DropTrailingEmpty(ps[..|ps| - 1]) else ps
  }

  /**
   * `s.split(c)` for a pattern that matches the single character c and the
   * default limit 0: a string without c splits into itself (so "" gives [""]);
   * otherwise the pieces, with the trailing empty ones removed.
   */
  function Split(s: string, c: char): seq<string> {
    if c in s then DropTrailingEmpty(Pieces(s, c)) else [s]
  }

  /** The parts separated by c: what a sequence of `a + "," + b` concatenations builds. */
  function Join(parts: seq<string>, c: char): string
    requires |parts| >= 1
  {
    if |parts| == 1 then parts[0] else parts[0] + [c] + Join(parts[1..], c)
  }

  predicate Avoids(parts: seq<string>, c: char) {
    forall p :: p in parts ==> c !in p
  }

  lemma {:induction false} PiecesOfJoin(parts: seq<string>, c: char)
    requires |parts| >= 1 && Avoids(parts, c)
    ensures Pieces(Join(parts, c), c) == parts
  {
    if |parts| > 1 {
      var rest := Join(parts[1..], c);
      var s := parts[0] + [c] + rest;
      assert Join(parts, c) == s;
      IndexOfAfter(parts[0], c, rest);
      assert s[..|parts[0]|] == parts[0];
      assert s[|parts[0]| + 1..] == rest;
      PiecesOfJoin(parts[1..], c);
      assert parts == [parts[0]] + parts[1..];
    }
  }

  /** Splitting a join gives the parts back, provided no part holds the separator and the last is not empty. */
  lemma {:induction false} SplitOfJoin(parts: seq<string>, c: char)
    requires |parts| >= 1 && Avoids(parts, c)
    requires |parts| > 1 ==> parts[|parts| - 1] != ""
    ensures Split(Join(parts, c), c) == parts
  {
    if |parts| > 1 {
      var rest := Join(parts[1..], c);
      assert (parts[0] + [c] + rest)[|parts[0]|] == c;
      PiecesOfJoin(parts, c);
    }
  }

  /** Joining at least two parts leaves the separator in the text. */
  lemma {:induction false} SeparatorInJoin(parts: seq<string>, c: char)
    requires |parts| > 1
    ensures c in Join(parts, c)
  {
    assert (parts[0] + [c] + Join(parts[1..], c))[|parts[0]|] == c;
  }

  /** Java's `trim`: drops leading and trailing characters up to U+0020. */
  function Trim(s: string): string {
    TrimEnd(TrimStart(s))
  }

  function TrimStart(s: string): string {
    if |s| > 0 && s[0] <= ' ' then TrimStart(s[1..]) else s
  }

  function TrimEnd(s: string): string {
    if |s| > 0 && s[|s| - 1] <= ' ' then TrimEnd(s[..|s| - 1]) else s
  }

  predicate IsTrimmed(s: string) {
    s == [] || (s[0] > ' ' && s[|s| - 1] > ' ')
  }

  lemma TrimOfTrimmed(s: string)
    requires IsTrimmed(s)
    ensures Trim(s) == s
  {
  }

  predicate StartsWith(s: string, prefix: string) {
    |prefix| <= |s| && s[..|prefix|] == prefix
  }

  /** Whether pat occurs anywhere in s. */
  predicate Mentions(s: string, pat: string)
    decreases |s|
  {
    |pat| <= |s| && (s[..|pat|] == pat || Mentions(s[1..], pat))
  }

  /**
   * Java's `s.replace(pat, "")`: every non-overlapping occurrence of pat,
   * found left to right, is removed.
   */
  function RemoveAll(s: string, pat: string): string
    requires |pat| > 0
    decreases |s|
  {
    if |s| < |pat| then s
    else if s[..|pat|] == pat then RemoveAll(s[|pat|..], pat)
    else [s[0]] + RemoveAll(s[1..], pat)
  }

  lemma {:induction false} RemoveAllUnmentioned(s: string, pat: string)
    requires |pat| > 0 && !Mentions(s, pat)
    ensures RemoveAll(s, pat) == s
    decreases |s|
  {
    if |s| >= |pat| {
      RemoveAllUnmentioned(s[1..], pat);
      assert s == [s[0]] + s[1..];
    }
  }

  lemma RemoveAllLeading(pat: string, s: string)
    requires |pat| > 0
    ensures RemoveAll(pat + s, pat) == RemoveAll(s, pat)
  {
    assert (pat + s)[..|pat|] == pat;
    assert (pat + s)[|pat|..] == s;
  }

  predicate IsDigit(ch: char) {
    '0' <= ch <= '9'
  }

  predicate AllDigits(s: string) {
    forall i :: 0 <= i < |s| ==> IsDigit(s[i])
  }

  function Digit(d: nat): (ch: char)
    requires d < 10
    ensures IsDigit(ch)
  {
    ('0' as int + d) as char
  }

  function DigitValue(ch: char): nat
    requires IsDigit(ch)
  {
    ch as int - '0' as int
  }

  /** Decimal digits of n, without leading zeros. */
  function NatToString(n: nat): (s: string)
    ensures |s| >= 1 && AllDigits(s)
  {
    if n < 10 then [Digit(n)] else NatToString(n / 10) + [Digit(n % 10)]
  }

  /** Java's `Integer.toString`, which string concatenation uses for an `int`. */
  function IntToString(x: int): (s: string)
    ensures |s| >= 1 && IsDigit(s[|s| - 1]) && (s[0] == '-' || IsDigit(s[0]))
    ensures forall ch :: ch in s ==> IsDigit(ch) || ch == '-'
  {
    if x < 0 then "-" + NatToString(-x) else NatToString(x)
  }

  /** The value of a string of decimal digits. */
  function DigitsValue(s: string): nat
    requires AllDigits(s)
  {
    if s == [] then 0 else 10 * DigitsValue(s[..|s| - 1]) + DigitValue(s[|s| - 1])
  }

  /**
   * Java's `Integer.parseInt(s)`: an optional sign, then one or more decimal
   * digits, denoting a value in the `int` range; None where Java throws
   * NumberFormatException.
   */
  function ParseInt(s: string): (r: Option<Int32>)
    ensures r.Some? ==> |s| > 0 && s[|s| - 1] > ' '
  {
    if |s| == 0 then None
    else if s[0] == '-' || s[0] == '+' then
      var digits := s[1..];
      if |digits| == 0 || !AllDigits(digits) then None
      else
        var v := DigitsValue(digits);
        if s[0] == '-' then (if v <= -MinInt then Some(0 - v as int) else None)
        else (if v <= MaxInt then Some(v) else None)
    else if AllDigits(s) then
      var v := DigitsValue(s);
      if v <= MaxInt then Some(v) else None
    else None
  }

  lemma {:induction false} DigitsOfNat(n: nat)
    ensures DigitsValue(NatToString(n)) == n
  {
    if n >= 10 {
      var s := NatToString(n / 10) + [Digit(n % 10)];
      assert s[..|s| - 1] == NatToString(n / 10);
      DigitsOfNat(n / 10);
    }
  }

  /** Integer.parseInt reads back every `int` that Integer.toString writes. */
  lemma {:induction false} ParseIntOfToString(x: Int32)
    ensures ParseInt(IntToString(x)) == Some(x)
  {
    if x < 0 {
      var n: nat := -(x as int);
      var t := NatToString(n);
      var s := IntToString(x);
      assert s == "-" + t;
      assert s[0] == '-' && s[1..] == t;
      assert |t| > 0 && AllDigits(t);
      DigitsOfNat(n);
      assert DigitsValue(t) == n <= -MinInt;
    } else {
      var s := IntToString(x);
      assert s == NatToString(x);
      assert IsDigit(s[0]) && AllDigits(s);
      DigitsOfNat(x);
      assert DigitsValue(s) == x <= MaxInt;
    }
  }

}

=== FILE: merchant.dfy ===
/**
 * The merchant agent: its stock and price maps, the pending market event, and
 * the message handler that answers stock requests, reads the price broadcast,
 * negotiates one trade with the other merchants and sells to the market.
 */
module Merchant {
  import opened Wrappers
  import opened JavaInt
  import opened JavaText
  import opened Spices
  import opened Messages
  import opened Protocol

  /**
   * The merchant's floating-point utility model, which this model takes as
   * given functions of the state at the time of the call:
   * - sellRank, holdRank: the order `Double.compare` puts on
   *   `normalizeUtilitySell` / `normalizeUtilityHold` of each spice;
   * - quantityToSell(spice, stock of spice): `decideQuantityToSell`;
   * - quantityToBuy(sell, buy, q): `Math.round(q * adjustTradeRatio(sell, buy))`;
   * - accept(trade): `evaluateTradeProposal` on a received proposal.
   */
  datatype Utility = Utility(
    sellRank: Spice -> int,
    holdRank: Spice -> int,
    quantityToSell: (Spice, Int32) -> Int32,
    quantityToBuy: (Spice, Spice, Int32) -> Int32,
    accept: Trade -> bool)

  /**
   * What one step of the handler depends on besides the merchant's fields:
   * the iteration order of the stock HashMap's keys, the utility model, and
   * the answer of the directory search for "market" agents (None where it
   * fails and returns null; the merchant itself is among the agents found).
   */
  datatype Env = Env(order: seq<Spice>, utility: Utility, merchants: Option<seq<AgentId>>)

  /** How a handler step ends, what it sent, and the messages left for later receives. */
  datatype Step = Step(outcome: Outcome, sent: seq<Sent>, rest: seq<Message>)

  const InitialStock: Table := Table(10, 15, 20, 12)
  const InitialPrices: Table := Table(0, 0, 0, 0)
  const Ack: string := "ACK"

  // ---------------------------------------------------------------- storm

  /** `Math.max(0, currentStock / 2)` with Java's truncating division. */
  function StormStock(x: Int32): (r: Int32)
    ensures r >= 0
    ensures x >= 0 ==> 2 * r <= x <= 2 * r + 1
    ensures x <= 1 ==> r == 0
  {
    var half := HalfTowardZero(x);
    if half > 0 then half else 0
  }

  // ---------------------------------------------------------------- trade finalization

  /**
   * `finalizeTrade` on a decoded trade: the sold spice's entry loses sellQty,
   * then the bought spice's entry (re-read after that put) gains buyQty, with
   * Java `int` arithmetic.
   */
  function ApplyTrade(stock: Table, t: Trade): Table {
    var afterSell := stock.Put(t.sell, Sub(stock.Get(t.sell), t.sellQty));
    afterSell.Put(t.buy, Add(afterSell.Get(t.buy), t.buyQty))
  }

  /**
   * A trade of two different spices takes sellQty from one entry, adds buyQty
   * to the other and leaves the rest alone; without overflow the total stock
   * changes by buyQty - sellQty.
   */
  lemma TradeEffect(stock: Table, t: Trade)
    ensures var after := ApplyTrade(stock, t);
      && (t.sell != t.buy ==>
            && after.Get(t.sell) == Sub(stock.Get(t.sell), t.sellQty)
            && after.Get(t.buy) == Add(stock.Get(t.buy), t.buyQty))
      && (t.sell == t.buy ==>
            after.Get(t.sell) == Add(Sub(stock.Get(t.sell), t.sellQty), t.buyQty))
      && (forall s :: s != t.sell && s != t.buy ==> after.Get(s) == stock.Get(s))
  {
  }

  lemma TradeTotal(stock: Table, t: Trade)
    requires InRange(stock.Get(t.sell) as int - t.sellQty as int)
    requires t.sell != t.buy ==> InRange(stock.Get(t.buy) as int + t.buyQty as int)
    requires t.sell == t.buy ==> InRange(stock.Get(t.sell) as int - t.sellQty as int + t.buyQty as int)
    ensures ApplyTrade(stock, t).Sum() == stock.Sum() - t.sellQty + t.buyQty
  {
    var after := ApplyTrade(stock, t);
    forall s ensures after.Get(s) == stock.Get(s) + (if s == t.buy then t.buyQty as int else 0) - (if s == t.sell then t.sellQty as int else 0) {
    }
    SumByEntries(stock, after);
  }

  lemma SumByEntries(a: Table, b: Table)
    ensures b.Sum() - a.Sum() == (b.Get(Cravinho) - a.Get(Cravinho)) + (b.Get(Cinnamon) - a.Get(Cinnamon))
      + (b.Get(Nutmeg) - a.Get(Nutmeg)) + (b.Get(Cardamom) - a.Get(Cardamom))
  {
  }

  // ---------------------------------------------------------------- selection

  /** `stream().filter(keep)` over spices, in order. */
  function Filter(xs: seq<Spice>, keep: Spice -> bool): seq<Spice> {
    if xs == [] then []
    else (if keep(xs[0]) then [xs[0]] else []) + Filter(xs[1..], keep)
  }

  /** The filter keeps exactly the spices of xs that pass keep. */
  lemma {:induction false} FilterMembers(xs: seq<Spice>, keep: Spice -> bool)
    ensures forall s :: s in Filter(xs, keep) <==> s in xs && keep(s)
  {
    if xs != [] {
      FilterMembers(xs[1..], keep);
      assert xs == [xs[0]] + xs[1..];
    }
  }

  /** Filtering a concatenation filters each part. */
  lemma {:induction false} FilterAppend(a: seq<Spice>, b: seq<Spice>, keep: Spice -> bool)
    ensures Filter(a + b, keep) == Filter(a, keep) + Filter(b, keep)
  {
    if a == [] {
      assert a + b == b;
    } else {
      var head := if keep(a[0]) then [a[0]] else [];
      assert (a + b)[1..] == a[1..] + b;
      FilterAppend(a[1..], b, keep);
      assert Filter(a + b, keep) == head + (Filter(a[1..], keep) + Filter(b, keep));
      assert head + (Filter(a[1..], keep) + Filter(b, keep)) == (head + Filter(a[1..], keep)) + Filter(b, keep);
    }
  }

  /**
   * xs[i], when kept, sits at some position j of the filtered sequence, and
   * everything the filter keeps up to j comes from the first i + 1 spices.
   */
  lemma FilterPosition(xs: seq<Spice>, keep: Spice -> bool, i: nat) returns (j: nat)
    requires i < |xs| && keep(xs[i])
    ensures j < |Filter(xs, keep)| && Filter(xs, keep)[j] == xs[i]
    ensures forall k :: 0 <= k <= j ==> Filter(xs, keep)[k] in xs[..i + 1]
  {
    var c, pre := Filter(xs, keep), Filter(xs[..i + 1], keep);
    assert xs[..i] + [xs[i]] == xs[..i + 1];
    FilterAppend(xs[..i], [xs[i]], keep);
    assert [xs[i]][1..] == [];
    assert xs[..i + 1] + xs[i + 1..] == xs;
    FilterAppend(xs[..i + 1], xs[i + 1..], keep);
    j := |pre| - 1;
    assert c[..j + 1] == pre;
    FilterMembers(xs[..i + 1], keep);
    assert forall k :: 0 <= k <= j ==> c[k] == pre[k];
  }

  /**
   * `filter(keep).max(...)` keeps, among the kept spices of highest rank, the
   * one that comes first: no kept spice of that rank comes before it.
   */
  lemma FilterMaxFirst(xs: seq<Spice>, keep: Spice -> bool, rank: Spice -> int)
    requires MaxBy(Filter(xs, keep), rank).Some?
    ensures var r := MaxBy(Filter(xs, keep), rank).value;
      forall i :: 0 <= i < |xs| && keep(xs[i]) && rank(xs[i]) == rank(r) ==> r in xs[..i + 1]
  {
    var r := MaxBy(Filter(xs, keep), rank).value;
    forall i | 0 <= i < |xs| && keep(xs[i]) && rank(xs[i]) == rank(r)
      ensures r in xs[..i + 1]
    {
      FilterMaxBefore(xs, keep, rank, i);
    }
  }

  lemma FilterMaxBefore(xs: seq<Spice>, keep: Spice -> bool, rank: Spice -> int, i: nat)
    requires MaxBy(Filter(xs, keep), rank).Some?
    requires i < |xs| && keep(xs[i]) && rank(xs[i]) == rank(MaxBy(Filter(xs, keep), rank).value)
    ensures MaxBy(Filter(xs, keep), rank).value in xs[..i + 1]
  {
    var j := FilterPosition(xs, keep, i);
    MaxByKeepsFirst(Filter(xs, keep), rank, j);
  }

  /** The spices of order with positive stock, in order (`filter(e -> e.getValue() > 0)`). */
  function InStock(order: seq<Spice>, stock: Table): (r: seq<Spice>)
    ensures forall s :: s in r <==> s in order && stock.Get(s) > 0
  {
    FilterMembers(order, s => stock.Get(s) > 0);
    Filter(order, s => stock.Get(s) > 0)
  }

  /** The spices of order other than sell, in order (`filter(s -> !s.equals(spiceToSell))`). */
  function Others(order: seq<Spice>, sell: Option<Spice>): (r: seq<Spice>)
    ensures forall s :: s in r <==> s in order && Some(s) != sell
  {
    FilterMembers(order, s => Some(s) != sell);
    Filter(order, s => Some(s) != sell)
  }

  /**
   * `chooseSpiceToSell`: the in-stock spice of highest sell rank, the first
   * in key order among equals; None (Java's null) when no spice is in stock.
   */
  function ChooseSpiceToSell(stock: Table, order: seq<Spice>, sellRank: Spice -> int): (r: Option<Spice>)
    requires IsKeyOrder(order)
    ensures r.None? <==> forall s :: stock.Get(s) <= 0
    ensures r.Some? ==> stock.Get(r.value) > 0
    ensures r.Some? ==> forall s :: stock.Get(s) > 0 ==> sellRank(s) <= sellRank(r.value)
    ensures r.Some? ==> forall i :: 0 <= i < |order| && stock.Get(order[i]) > 0 && sellRank(order[i]) == sellRank(r.value)
                          ==> r.value in order[..i + 1]
  {
    var r := MaxBy(InStock(order, stock), sellRank);
    if r.Some? then FilterMaxFirst(order, s => stock.Get(s) > 0, sellRank); r else r
  }

  /**
   * `chooseSpiceToBuy`: the spice of highest hold rank other than the one to
   * sell, the first in key order among equals. With four spices there always
   * is one, and it is never the one to sell.
   */
  function ChooseSpiceToBuy(sell: Option<Spice>, order: seq<Spice>, holdRank: Spice -> int): (r: Option<Spice>)
    requires IsKeyOrder(order)
    ensures r.Some? && Some(r.value) != sell
    ensures forall s :: Some(s) != sell ==> holdRank(s) <= holdRank(r.value)
    ensures forall i :: 0 <= i < |order| && Some(order[i]) != sell && holdRank(order[i]) == holdRank(r.value)
              ==> r.value in order[..i + 1]
  {
    var others := Others(order, sell);
    assert others != [] by { assert Cravinho in others || Cinnamon in others; }
    var r := MaxBy(others, holdRank);
    FilterMaxFirst(order, s => Some(s) != sell, holdRank);
    r
  }

  /**
   * The proposal of `proposeTrade`: None (`"NO_TRADE"`) exactly when no spice
   * is in stock; otherwise the spice `chooseSpiceToSell` picks, for the
   * quantity the sell model gives, against the spice `chooseSpiceToBuy`
   * picks, for the quantity the trade ratio gives.
   */
  function ChooseProposal(stock: Table, env: Env): (r: Option<Trade>)
    requires IsKeyOrder(env.order)
    ensures r.None? <==> forall s :: stock.Get(s) <= 0
    ensures r.Some? ==> r.value.sell != r.value.buy && stock.Get(r.value.sell) > 0
    ensures r.Some? ==> Some(r.value.sell) == ChooseSpiceToSell(stock, env.order, env.utility.sellRank)
    ensures r.Some? ==> Some(r.value.buy) == ChooseSpiceToBuy(Some(r.value.sell), env.order, env.utility.holdRank)
    ensures r.Some? ==> r.value.sellQty == env.utility.quantityToSell(r.value.sell, stock.Get(r.value.sell))
    ensures r.Some? ==> r.value.buyQty == env.utility.quantityToBuy(r.value.sell, r.value.buy, r.value.sellQty)
  {
    var u := env.utility;
    var sell := ChooseSpiceToSell(stock, env.order, u.sellRank);
    var buy := ChooseSpiceToBuy(sell, env.order, u.holdRank);
    if sell.None? || buy.None? then None
    else
      var q := u.quantityToSell(sell.value, stock.Get(sell.value));
      Some(Trade(sell.value, q, buy.value, u.quantityToBuy(sell.value, buy.value, q)))
  }

  /**
   * The spice the proposal sells: in stock, of the highest sell rank, and
   * the first in key order among spices in stock of that rank.
   */
  lemma ProposalSells(stock: Table, env: Env, t: Trade)
    requires IsKeyOrder(env.order)
    ensures ChooseProposal(stock, env) == Some(t) ==> stock.Get(t.sell) > 0
    ensures ChooseProposal(stock, env) == Some(t) ==>
              forall s :: stock.Get(s) > 0 ==> env.utility.sellRank(s) <= env.utility.sellRank(t.sell)
    ensures ChooseProposal(stock, env) == Some(t) ==>
              forall i :: 0 <= i < |env.order| && stock.Get(env.order[i]) > 0
                          && env.utility.sellRank(env.order[i]) == env.utility.sellRank(t.sell)
                          ==> t.sell in env.order[..i + 1]
  {
    if ChooseProposal(stock, env) == Some(t) {
      var sell := ChooseSpiceToSell(stock, env.order, env.utility.sellRank);
      assert sell == Some(t.sell);
    }
  }

  /**
   * The spice the proposal buys: another spice than the one sold, of the
   * highest hold rank among those, and the first in key order among them.
   */
  lemma ProposalBuys(stock: Table, env: Env, t: Trade)
    requires IsKeyOrder(env.order)
    ensures ChooseProposal(stock, env) == Some(t) ==> t.buy != t.sell
    ensures ChooseProposal(stock, env) == Some(t) ==>
              forall s :: s != t.sell ==> env.utility.holdRank(s) <= env.utility.holdRank(t.buy)
    ensures ChooseProposal(stock, env) == Some(t) ==>
              forall i :: 0 <= i < |env.order| && env.order[i] != t.sell
                          && env.utility.holdRank(env.order[i]) == env.utility.holdRank(t.buy)
                          ==> t.buy in env.order[..i + 1]
  {
    if ChooseProposal(stock, env) == Some(t) {
      var buy := ChooseSpiceToBuy(Some(t.sell), env.order, env.utility.holdRank);
      assert buy == Some(t.buy);
      forall s | s != t.sell
        ensures env.utility.holdRank(s) <= env.utility.holdRank(t.buy)
      {
        assert Some(s) != Some(t.sell);
      }
      forall i | 0 <= i < |env.order| && env.order[i] != t.sell
                   && env.utility.holdRank(env.order[i]) == env.utility.holdRank(t.buy)
        ensures t.buy in env.order[..i + 1]
      {
        assert Some(env.order[i]) != Some(t.sell);
      }
    }
  }

  function ProposalContent(p: Option<Trade>): string {
    if p.None? then NoTrade else EncodeTrade(p.value)
  }

  /** The receivers of the proposal broadcast: every agent found, none when the search failed. */
  function Receivers(merchants: Option<seq<AgentId>>): seq<AgentId> {
    if merchants.None? then [] else merchants.value
  }

  // ---------------------------------------------------------------- answering proposals

  /** `handleTradeProposal` with the merchant's acceptance rule, as the collection loop applies it. */
  function Answerer(accept: Trade -> bool): Message -> Handled {
    m => HandleTradeProposal(m, accept)
  }

  /** What `handleTradeProposal` does with one message: nothing, one reply, or an exception. */
  datatype Handled = NoReply | Reply(sent: Sent) | Failed

  /**
   * `handleTradeProposal`: no reply to `"NO_TRADE"`; otherwise exactly one
   * reply to the proposer, an accept that echoes the proposal verbatim or a
   * reject without content; an exception when the proposal does not decode.
   */
  function HandleTradeProposal(m: Message, accept: Trade -> bool): (h: Handled)
    ensures h.NoReply? <==> m.content == NoTrade
    ensures h.Failed? <==> m.content != NoTrade && DecodeTrade(m.content).None?
    ensures h.Reply? ==> h.sent.receivers == [m.sender]
    ensures h.Reply? && accept(DecodeTrade(m.content).value) ==> h.sent == Sent(AcceptProposal, [m.sender], Some(m.content))
    ensures h.Reply? && !accept(DecodeTrade(m.content).value) ==> h.sent == Sent(RejectProposal, [m.sender], None)
  {
    if m.content == NoTrade then NoReply
    else
      match DecodeTrade(m.content)
      case None => Failed
      case Some(t) =>
        if accept(t) then Reply(Sent(AcceptProposal, [m.sender], Some(m.content)))
        else Reply(Sent(RejectProposal, [m.sender], None))
  }

  // ---------------------------------------------------------------- collecting proposals

  datatype Collected = Collected(outcome: Outcome, replies: seq<Sent>, rest: seq<Message>)

  /**
   * The collection loop of `proposeTrade`: receive until n PROPOSE messages
   * have been handled; any other message is taken from the inbox and dropped.
   */
  function CollectProposals(inbox: seq<Message>, n: nat, handle: Message -> Handled): (r: Collected)
    ensures |r.rest| <= |inbox|
    decreases |inbox|
  {
    if n == 0 then Collected(Completed, [], inbox)
    else if inbox == [] then Collected(Stalled, [], [])
    else if inbox[0].performative != Propose then CollectProposals(inbox[1..], n, handle)
    else
      match handle(inbox[0])
      case Failed => Collected(Threw, [], inbox[1..])
      case NoReply => CollectProposals(inbox[1..], n - 1, handle)
      case Reply(s) =>
        var r := CollectProposals(inbox[1..], n - 1, handle);
        r.(replies := [s] + r.replies)
  }

  /** The loop only takes messages from the front of the inbox. */
  lemma {:induction false} CollectLeavesSuffix(inbox: seq<Message>, n: nat, handle: Message -> Handled)
    ensures var r := CollectProposals(inbox, n, handle);
      r.rest == inbox[|inbox| - |r.rest|..]
    decreases |inbox|
  {
    if n > 0 && inbox != [] {
      CollectLeavesSuffix(inbox[1..], if inbox[0].performative == Propose then n - 1 else n, handle);
    }
  }

  function CountProposals(ms: seq<Message>): nat {
    if ms == [] then 0 else (if ms[0].performative == Propose then 1 else 0) + CountProposals(ms[1..])
  }

  lemma CountFront(ms: seq<Message>, k: nat)
    requires 0 < k <= |ms|
    ensures CountProposals(ms[..k]) == (if ms[0].performative == Propose then 1 else 0) + CountProposals(ms[1..][..k - 1])
  {
    assert ms[..k] == [ms[0]] + ms[1..][..k - 1];
  }

  /** The loop counts only PROPOSE messages: exactly n of them when it completes, never more. */
  lemma {:induction false} CollectCounts(inbox: seq<Message>, n: nat, handle: Message -> Handled)
    ensures var r := CollectProposals(inbox, n, handle);
      var consumed := inbox[..|inbox| - |r.rest|];
      && (r.outcome == Completed ==> CountProposals(consumed) == n)
      && CountProposals(consumed) <= n
    decreases |inbox|
  {
    var r := CollectProposals(inbox, n, handle);
    if n == 0 {
      assert inbox[..|inbox| - |r.rest|] == [];
    } else if inbox != [] {
      var head := inbox[0];
      var d := if head.performative == Propose then 1 else 0;
      var tail := CollectProposals(inbox[1..], n - d, handle);
      CollectStep(inbox, n, handle);
      var k := |inbox| - |r.rest|;
      if head.performative == Propose && r == Collected(Threw, [], inbox[1..]) {
        assert inbox[..k] == [head];
      } else {
        assert r.outcome == tail.outcome && r.rest == tail.rest;
        CollectCounts(inbox[1..], n - d, handle);
        CountFront(inbox, k);
        assert CountProposals(inbox[..k]) == d + CountProposals(inbox[1..][..k - 1]);
      }
    }
  }

  /** The loop stops right after the n-th PROPOSE: the last message it took is one. */
  lemma {:induction false} CollectEndsOnProposal(inbox: seq<Message>, n: nat, handle: Message -> Handled)
    ensures var r := CollectProposals(inbox, n, handle);
      var consumed := inbox[..|inbox| - |r.rest|];
      r.outcome == Completed && n > 0 ==> |consumed| > 0 && consumed[|consumed| - 1].performative == Propose
    decreases |inbox|
  {
    var r := CollectProposals(inbox, n, handle);
    if n > 0 && inbox != [] && r.outcome == Completed {
      var head := inbox[0];
      var m := if head.performative == Propose then n - 1 else n;
      var tail := CollectProposals(inbox[1..], m, handle);
      CollectStep(inbox, n, handle);
      CollectLeavesSuffix(inbox[1..], m, handle);
      var k := |inbox| - |tail.rest|;
      var tailConsumed := inbox[1..][..k - 1];
      assert inbox[..k] == [head] + tailConsumed;
      if m == 0 {
        assert tailConsumed == [];
      } else {
        CollectEndsOnProposal(inbox[1..], m, handle);
      }
    }
  }

  /** The loop blocks for ever only when the inbox holds fewer than n PROPOSE messages, all taken. */
  lemma {:induction false} CollectStalls(inbox: seq<Message>, n: nat, handle: Message -> Handled)
    ensures var r := CollectProposals(inbox, n, handle);
      r.outcome == Stalled ==> r.rest == [] && CountProposals(inbox) < n
    decreases |inbox|
  {
    var r := CollectProposals(inbox, n, handle);
    if n > 0 && inbox != [] && r.outcome == Stalled {
      var m := if inbox[0].performative == Propose then n - 1 else n;
      CollectStep(inbox, n, handle);
      CollectStalls(inbox[1..], m, handle);
    }
  }

  /** At most one reply goes out per PROPOSE message taken from the inbox. */
  lemma {:induction false} CollectReplies(inbox: seq<Message>, n: nat, handle: Message -> Handled)
    ensures var r := CollectProposals(inbox, n, handle);
      |r.replies| <= CountProposals(inbox[..|inbox| - |r.rest|])
    decreases |inbox|
  {
    var r := CollectProposals(inbox, n, handle);
    if n > 0 && inbox != [] {
      var head := inbox[0];
      var m := if head.performative == Propose then n - 1 else n;
      CollectLeavesSuffix(inbox[1..], m, handle);
      if head.performative == Propose && handle(head).Failed? {
        assert r.replies == [];
      } else {
        var tail := CollectProposals(inbox[1..], m, handle);
        CollectReplies(inbox[1..], m, handle);
        assert r.rest == tail.rest;
        assert |r.replies| <= |tail.replies| + (if head.performative == Propose then 1 else 0);
        var k := |inbox| - |tail.rest|;
        assert inbox[..k] == [head] + inbox[1..][..k - 1];
      }
    }
  }

  /** What answering ms sends: handle's reply to each PROPOSE message that has one, in order. */
  function Answers(ms: seq<Message>, handle: Message -> Handled): seq<Sent> {
    if ms == [] then []
    else (if ms[0].performative == Propose && handle(ms[0]).Reply? then [handle(ms[0]).sent] else []) + Answers(ms[1..], handle)
  }

  /**
   * Every PROPOSE message the loop takes is answered with handle's reply, in
   * order, whichever way the loop ends: the replies are the answers to the
   * messages taken.
   */
  lemma {:induction false} CollectAnswers(inbox: seq<Message>, n: nat, handle: Message -> Handled)
    ensures var r := CollectProposals(inbox, n, handle);
      r.replies == Answers(inbox[..|inbox| - |r.rest|], handle)
    decreases |inbox|
  {
    var r := CollectProposals(inbox, n, handle);
    var k := |inbox| - |r.rest|;
    if n == 0 || inbox == [] {
      assert inbox[..k] == [];
    } else {
      var head := inbox[0];
      var m := if head.performative == Propose then n - 1 else n;
      if head.performative == Propose && handle(head).Failed? {
        assert inbox[..k] == [head];
        assert Answers([head], handle) == [] + Answers([], handle);
      } else {
        var tail := CollectProposals(inbox[1..], m, handle);
        var said := if head.performative == Propose && handle(head).Reply? then [handle(head).sent] else [];
        assert r.rest == tail.rest && r.replies == said + tail.replies;
        CollectAnswers(inbox[1..], m, handle);
        assert inbox[..k] == [head] + inbox[1..][..k - 1];
        assert Answers(inbox[..k], handle) == said + Answers(inbox[1..][..k - 1], handle);
      }
    }
  }

  /** One step of the collection loop, without looking into how a proposal is answered. */
  lemma CollectStep(inbox: seq<Message>, n: nat, handle: Message -> Handled)
    requires n > 0 && inbox != []
    ensures var r := CollectProposals(inbox, n, handle);
      var m := if inbox[0].performative == Propose then n - 1 else n;
      var tail := CollectProposals(inbox[1..], m, handle);
      || (inbox[0].performative == Propose && r == Collected(Threw, [], inbox[1..]))
      || (r.outcome == tail.outcome && r.rest == tail.rest
          && |r.replies| <= |tail.replies| + (if inbox[0].performative == Propose then 1 else 0))
  {
  }

  /** The messages of ms that are PROPOSE messages. */
  function OnlyProposals(ms: seq<Message>): (r: seq<Message>)
    ensures |r| == CountProposals(ms)
  {
    if ms == [] then []
    else (if ms[0].performative == Propose then [ms[0]] else []) + OnlyProposals(ms[1..])
  }

  /** Messages of other performatives have no effect on what the loop sends or how it ends. */
  lemma {:induction false} CollectIgnoresOthers(inbox: seq<Message>, n: nat, handle: Message -> Handled)
    ensures var r, p := CollectProposals(inbox, n, handle), CollectProposals(OnlyProposals(inbox), n, handle);
      r.outcome == p.outcome && r.replies == p.replies
  {
    if n > 0 && inbox != [] {
      CollectIgnoresOthers(inbox[1..], if inbox[0].performative == Propose then n - 1 else n, handle);
      if inbox[0].performative == Propose {
        assert OnlyProposals(inbox) == [inbox[0]] + OnlyProposals(inbox[1..]);
        assert OnlyProposals(inbox)[1..] == OnlyProposals(inbox[1..]);
      } else {
        assert OnlyProposals(inbox) == OnlyProposals(inbox[1..]);
      }
    }
  }

  /**
   * The collection loop of `proposeTrade`: n PROPOSE messages are answered
   * with handle; messages of other performatives are taken and dropped.
   */
  method ReceiveProposals(inbox: seq<Message>, n: nat, handle: Message -> Handled) returns (c: Collected)
    ensures c == CollectProposals(inbox, n, handle)
  {
    var proposalsReceived := 0;
    var rest := inbox;
    var replies: seq<Sent> := [];
    while proposalsReceived < n
      invariant proposalsReceived <= n
      invariant var tail := CollectProposals(rest, n - proposalsReceived, handle);
        CollectProposals(inbox, n, handle) == tail.(replies := replies + tail.replies)
      decreases |rest|
    {
      if rest == [] {
        return Collected(Stalled, replies, []);
      }
      var reply := rest[0];
      rest := rest[1..];
      if reply.performative == Propose {
        var handled := handle(reply);
        if handled.Failed? {
          return Collected(Threw, replies, rest);
        }
        if handled.Reply? {
          replies := replies + [handled.sent];
        }
        proposalsReceived := proposalsReceived + 1;
      }
    }
    c := Collected(Completed, replies, rest);
  }

  // ---------------------------------------------------------------- proposeTrade

  datatype Negotiation = Negotiation(outcome: Outcome, sent: seq<Sent>, rest: seq<Message>, stock: Table)

  /**
   * `proposeTrade` from a stock: broadcast the proposal (or `"NO_TRADE"`) to
   * every merchant found, answer the proposals of as many merchants, and, only
   * when a real proposal went out, receive one more message: an accept
   * finalizes the trade it carries, anything else changes nothing.
   */
  function Negotiate(stock: Table, env: Env, inbox: seq<Message>): (r: Negotiation)
    requires IsKeyOrder(env.order)
  {
    var p := ChooseProposal(stock, env);
    var receivers := Receivers(env.merchants);
    var c := CollectProposals(inbox, |receivers|, Answerer(env.utility.accept));
    var a := AwaitAnswer(p, c, stock);
    Negotiation(a.outcome, [Sent(Propose, receivers, Some(ProposalContent(p)))] + c.replies, a.rest, a.stock)
  }

  /** How `proposeTrade` ends once the proposals are collected: its outcome, the unread inbox and the stock. */
  datatype Settled = Settled(outcome: Outcome, rest: seq<Message>, stock: Table)

  /**
   * The end of `proposeTrade`: only when the collection completed and a real
   * proposal p went out is one more message received; an accept finalizes
   * the trade it carries, anything else changes nothing.
   */
  function AwaitAnswer(p: Option<Trade>, c: Collected, stock: Table): Settled {
    if c.outcome != Completed || p.None? then Settled(c.outcome, c.rest, stock)
    else if c.rest == [] then Settled(Stalled, [], stock)
    else
      var answer := c.rest[0];
      if answer.performative != AcceptProposal then Settled(Completed, c.rest[1..], stock)
      else
        match DecodeTrade(answer.content)
        case None => Settled(Threw, c.rest[1..], stock)
        case Some(t) => Settled(Completed, c.rest[1..], ApplyTrade(stock, t))
  }

  /**
   * The first message sent is the broadcast to every merchant found; it is
   * `"NO_TRADE"` exactly when no spice is in stock. A merchant that sent
   * `"NO_TRADE"` receives nothing after the proposals and keeps its stock.
   */
  lemma NegotiateProposal(stock: Table, env: Env, inbox: seq<Message>)
    requires IsKeyOrder(env.order)
    ensures var r := Negotiate(stock, env, inbox);
      && |r.sent| >= 1
      && r.sent[0].performative == Propose
      && r.sent[0].receivers == Receivers(env.merchants)
      && (r.sent[0].content == Some(NoTrade) <==> forall s :: stock.Get(s) <= 0)
      && ((forall s :: stock.Get(s) <= 0) ==>
            r.stock == stock && r.rest == CollectProposals(inbox, |Receivers(env.merchants)|, Answerer(env.utility.accept)).rest)
  {
    var p := ChooseProposal(stock, env);
    var r := Negotiate(stock, env, inbox);
    assert r.sent[0] == Sent(Propose, Receivers(env.merchants), Some(ProposalContent(p)));
    if p.Some? {
      assert ProposalContent(p) != NoTrade;
    } else {
      assert ProposalContent(p) == NoTrade;
    }
  }

  /**
   * When a real proposal went out and the message after the proposals is an
   * accept echoing it, the merchant's stock is exactly that trade applied.
   */
  lemma {:induction false} AcceptedProposalIsApplied(stock: Table, env: Env, inbox: seq<Message>, t: Trade)
    requires IsKeyOrder(env.order)
    ensures var c := CollectProposals(inbox, |Receivers(env.merchants)|, Answerer(env.utility.accept));
      && ChooseProposal(stock, env) == Some(t)
      && c.outcome == Completed && c.rest != []
      && c.rest[0].performative == AcceptProposal && c.rest[0].content == EncodeTrade(t)
      ==> Negotiate(stock, env, inbox).outcome == Completed && Negotiate(stock, env, inbox).stock == ApplyTrade(stock, t)
  {
    TradeRoundTrip(t);
  }

  /**
   * After the first send the merchant sends exactly its answers to the
   * proposals it took. After a real proposal and a completed collection it
   * receives exactly one more message: none arriving stalls, an answer other
   * than an accept leaves the stock as it was, and an accept that does not
   * decode throws; a collection that did not complete ends the same way.
   */
  lemma NegotiateAwaitsOneAnswer(stock: Table, env: Env, inbox: seq<Message>)
    requires IsKeyOrder(env.order)
    ensures var r, handle := Negotiate(stock, env, inbox), Answerer(env.utility.accept);
      var c := CollectProposals(inbox, |Receivers(env.merchants)|, handle);
      && |r.sent| >= 1
      && r.sent[1..] == c.replies == Answers(inbox[..|inbox| - |c.rest|], handle)
      && (c.outcome != Completed ==> r.outcome == c.outcome && r.rest == c.rest && r.stock == stock)
      && (ChooseProposal(stock, env).Some? && c.outcome == Completed ==>
            && (c.rest == [] ==> r.outcome == Stalled && r.rest == [] && r.stock == stock)
            && (c.rest != [] ==> r.rest == c.rest[1..])
            && (c.rest != [] && c.rest[0].performative != AcceptProposal ==> r.outcome == Completed && r.stock == stock)
            && (c.rest != [] && c.rest[0].performative == AcceptProposal && DecodeTrade(c.rest[0].content).None? ==>
                  r.outcome == Threw && r.stock == stock))
  {
    var handle := Answerer(env.utility.accept);
    var c := CollectProposals(inbox, |Receivers(env.merchants)|, handle);
    CollectAnswers(inbox, |Receivers(env.merchants)|, handle);
    var r := Negotiate(stock, env, inbox);
    assert r.sent == [r.sent[0]] + c.replies;
  }

  /** Only an accept received after a real proposal can change the stock. */
  lemma NegotiateStockFrame(stock: Table, env: Env, inbox: seq<Message>)
    requires IsKeyOrder(env.order)
    ensures var r := Negotiate(stock, env, inbox);
      var c := CollectProposals(inbox, |Receivers(env.merchants)|, Answerer(env.utility.accept));
      r.stock != stock ==>
        && ChooseProposal(stock, env).Some?
        && c.outcome == Completed && c.rest != [] && c.rest[0].performative == AcceptProposal
        && r.stock == ApplyTrade(stock, DecodeTrade(c.rest[0].content).value)
  {
    var p := ChooseProposal(stock, env);
    var c := CollectProposals(inbox, |Receivers(env.merchants)|, Answerer(env.utility.accept));
    assert Negotiate(stock, env, inbox).stock == AwaitAnswer(p, c, stock).stock;
    AwaitAnswerFrame(p, c, stock);
  }

  /** Only an accept read right after a completed collection, answering a real proposal, changes the stock. */
  lemma AwaitAnswerFrame(p: Option<Trade>, c: Collected, stock: Table)
    ensures var a := AwaitAnswer(p, c, stock);
      a.stock != stock ==>
        && p.Some? && c.outcome == Completed && c.rest != [] && c.rest[0].performative == AcceptProposal
        && a.stock == ApplyTrade(stock, DecodeTrade(c.rest[0].content).value)
  {
  }

  // ---------------------------------------------------------------- market sale

  /** `decideMarketSale`'s entry for spice s, if it sells any: quantity and `quantity * price`. */
  function SaleOf(s: Spice, stock: Table, prices: Table, quantityToSell: (Spice, Int32) -> Int32): seq<SaleEntry> {
    var q := quantityToSell(s, stock.Get(s));
    if q > 0 then [SaleEntry(s, q, Mul(q, prices.Get(s)))] else []
  }

  /** The entries of the sale decision, one per spice with a positive quantity, in key order. */
  function SaleEntries(order: seq<Spice>, stock: Table, prices: Table, quantityToSell: (Spice, Int32) -> Int32): seq<SaleEntry>
  {
    SalesUpTo(order, |order|, stock, prices, quantityToSell)
  }

  /** The entries for the first i spices of the order. */
  function SalesUpTo(order: seq<Spice>, i: nat, stock: Table, prices: Table, quantityToSell: (Spice, Int32) -> Int32): seq<SaleEntry>
    requires i <= |order|
  {
    if i == 0 then []
    else SalesUpTo(order, i - 1, stock, prices, quantityToSell) + SaleOf(order[i - 1], stock, prices, quantityToSell)
  }

  /** One spice's stock after the sale: reduced by its quantity when that is positive. */
  function Sold(x: Int32, q: Int32): Int32 {
    if q > 0 then Sub(x, q) else x
  }

  /** The stock after `decideMarketSale`. */
  function StockAfterSale(stock: Table, quantityToSell: (Spice, Int32) -> Int32): (r: Table)
    ensures forall s :: r.Get(s) == Sold(stock.Get(s), quantityToSell(s, stock.Get(s)))
  {
    Table(
      Sold(stock.cravinho, quantityToSell(Cravinho, stock.cravinho)),
      Sold(stock.cinnamon, quantityToSell(Cinnamon, stock.cinnamon)),
      Sold(stock.nutmeg, quantityToSell(Nutmeg, stock.nutmeg)),
      Sold(stock.cardamom, quantityToSell(Cardamom, stock.cardamom)))
  }

  /**
   * The decision is `"HOLD"` (no entries) exactly when no spice has a positive
   * quantity; otherwise each entry names a spice of the order with its positive
   * quantity and `quantity * price`, and every such spice has an entry.
   */
  lemma SaleEntriesAreTheSales(order: seq<Spice>, stock: Table, prices: Table, quantityToSell: (Spice, Int32) -> Int32)
    requires IsKeyOrder(order)
    ensures var es := SaleEntries(order, stock, prices, quantityToSell);
      && (exists pos :: EmbedsInOrder(order, es, pos))
      && (forall a, b :: 0 <= a < b < |es| ==> es[a].spice != es[b].spice)
      && (forall e :: e in es ==>
            && e.spice in order
            && e.quantity == quantityToSell(e.spice, stock.Get(e.spice)) > 0
            && e.proceeds == Mul(e.quantity, prices.Get(e.spice)))
      && (forall s :: s in order && quantityToSell(s, stock.Get(s)) > 0 ==> exists e :: e in es && e.spice == s)
      && (es == [] <==> forall s :: s in order ==> quantityToSell(s, stock.Get(s)) <= 0)
  {
    var es := SaleEntries(order, stock, prices, quantityToSell);
    SalesUpToSound(order, |order|, stock, prices, quantityToSell);
    SalesUpToComplete(order, |order|, stock, prices, quantityToSell);
    var pos := SalesUpToEmbeds(order, |order|, stock, prices, quantityToSell);
    forall a, b | 0 <= a < b < |es| ensures es[a].spice != es[b].spice {
      assert order[pos[a]] != order[pos[b]];
    }
    assert order[..|order|] == order;
    if es != [] {
      assert es[0] in es;
    }
  }

  /** Every entry for the first i keys names one of them with its positive quantity and its proceeds. */
  lemma {:induction false} SalesUpToSound(order: seq<Spice>, i: nat, stock: Table, prices: Table, quantityToSell: (Spice, Int32) -> Int32)
    requires i <= |order|
    ensures forall e :: e in SalesUpTo(order, i, stock, prices, quantityToSell) ==>
      && e.spice in order[..i]
      && e.quantity == quantityToSell(e.spice, stock.Get(e.spice)) > 0
      && e.proceeds == Mul(e.quantity, prices.Get(e.spice))
  {
    if i > 0 {
      SalesUpToSound(order, i - 1, stock, prices, quantityToSell);
      assert order[..i] == order[..i - 1] + [order[i - 1]];
    }
  }

  /**
   * pos places each entry at a position of the order that holds its key, the
   * positions strictly increasing: the entries follow the order.
   */
  predicate EmbedsInOrder(order: seq<Spice>, es: seq<SaleEntry>, pos: seq<nat>) {
    && |pos| == |es|
    && (forall a :: 0 <= a < |es| ==> pos[a] < |order| && order[pos[a]] == es[a].spice)
    && (forall a, b :: 0 <= a < b < |es| ==> pos[a] < pos[b])
  }

  /** The entries for the first i keys sit at increasing positions below i, each holding its key. */
  lemma {:induction false} SalesUpToEmbeds(order: seq<Spice>, i: nat, stock: Table, prices: Table, quantityToSell: (Spice, Int32) -> Int32)
    returns (pos: seq<nat>)
    requires i <= |order|
    ensures EmbedsInOrder(order, SalesUpTo(order, i, stock, prices, quantityToSell), pos)
    ensures forall a :: 0 <= a < |pos| ==> pos[a] < i
  {
    if i == 0 {
      return [];
    }
    var prev := SalesUpTo(order, i - 1, stock, prices, quantityToSell);
    var last := order[i - 1];
    pos := SalesUpToEmbeds(order, i - 1, stock, prices, quantityToSell);
    var q := quantityToSell(last, stock.Get(last));
    if q > 0 {
      var e := SaleEntry(last, q, Mul(q, prices.Get(last)));
      assert SalesUpTo(order, i, stock, prices, quantityToSell) == prev + [e];
      pos := pos + [i - 1];
    } else {
      assert SalesUpTo(order, i, stock, prices, quantityToSell) == prev;
    }
  }

  /** Every one of the first i keys with a positive quantity has an entry. */
  lemma {:induction false} SalesUpToComplete(order: seq<Spice>, i: nat, stock: Table, prices: Table, quantityToSell: (Spice, Int32) -> Int32)
    requires i <= |order|
    ensures forall s :: s in order[..i] && quantityToSell(s, stock.Get(s)) > 0 ==>
      exists e :: e in SalesUpTo(order, i, stock, prices, quantityToSell) && e.spice == s
  {
    if i > 0 {
      SalesUpToComplete(order, i - 1, stock, prices, quantityToSell);
      var last := order[i - 1];
      assert order[..i] == order[..i - 1] + [last];
      var es := SalesUpTo(order, i, stock, prices, quantityToSell);
      assert es == SalesUpTo(order, i - 1, stock, prices, quantityToSell) + SaleOf(last, stock, prices, quantityToSell);
      if quantityToSell(last, stock.Get(last)) > 0 {
        assert es[|es| - 1].spice == last;
      }
    }
  }

  /**
   * With the quantity model's guarantee that a positive quantity never exceeds
   * the stock it was computed from, each sold spice loses exactly its quantity,
   * the others are untouched, and no stock that was non-negative turns negative.
   */
  lemma SaleKeepsStockNonNegative(stock: Table, quantityToSell: (Spice, Int32) -> Int32)
    requires forall s, x :: quantityToSell(s, x) > 0 ==> quantityToSell(s, x) <= x
    ensures forall s :: var q := quantityToSell(s, stock.Get(s));
      StockAfterSale(stock, quantityToSell).Get(s) == (if q > 0 then stock.Get(s) - q else stock.Get(s))
    ensures forall s :: stock.Get(s) >= 0 ==> StockAfterSale(stock, quantityToSell).Get(s) >= 0
  {
  }

  /** The decision is `"HOLD"` exactly when no spice has a positive quantity, and then the stock is left as it was. */
  lemma HoldLeavesStock(order: seq<Spice>, stock: Table, prices: Table, quantityToSell: (Spice, Int32) -> Int32)
    requires IsKeyOrder(order)
    ensures var decision := EncodeSale(SaleEntries(order, stock, prices, quantityToSell));
      && (decision == Hold <==> forall s :: quantityToSell(s, stock.Get(s)) <= 0)
      && (decision == Hold ==> StockAfterSale(stock, quantityToSell) == stock)
  {
    var es := SaleEntries(order, stock, prices, quantityToSell);
    SaleEntriesAreTheSales(order, stock, prices, quantityToSell);
    if es != [] {
      SaleIsNotHold(es);
    }
    if forall s :: quantityToSell(s, stock.Get(s)) <= 0 {
      SameEntries(StockAfterSale(stock, quantityToSell), stock);
    }
  }

  /** The stock once the first i spices of the order are sold, each by the quantity its starting amount gives. */
  function SoldUpTo(start: Table, order: seq<Spice>, i: nat, quantityToSell: (Spice, Int32) -> Int32): Table
    requires i <= |order|
  {
    if i == 0 then start
    else
      var s := order[i - 1];
      SoldUpTo(start, order, i - 1, quantityToSell).Put(s, Sold(start.Get(s), quantityToSell(s, start.Get(s))))
  }

  lemma {:induction false} SoldUpToEntry(start: Table, order: seq<Spice>, i: nat, quantityToSell: (Spice, Int32) -> Int32, s: Spice)
    requires i <= |order|
    ensures SoldUpTo(start, order, i, quantityToSell).Get(s)
      == if s in order[..i] then StockAfterSale(start, quantityToSell).Get(s) else start.Get(s)
  {
    if i > 0 {
      SoldUpToEntry(start, order, i - 1, quantityToSell, s);
      assert order[..i] == order[..i - 1] + [order[i - 1]];
    }
  }

  /** One iteration of `decideMarketSale`'s loop sells the next spice of the order. */
  lemma SaleStockStep(order: seq<Spice>, i: nat, start: Table, quantityToSell: (Spice, Int32) -> Int32, stock: Table)
    requires IsKeyOrder(order) && i < |order|
    requires stock == SoldUpTo(start, order, i, quantityToSell)
    ensures var spice := order[i];
      var q := quantityToSell(spice, stock.Get(spice));
      && stock.Get(spice) == start.Get(spice)
      && (q > 0 ==> SoldUpTo(start, order, i + 1, quantityToSell) == stock.Put(spice, Sub(stock.Get(spice), q)))
      && (q <= 0 ==> SoldUpTo(start, order, i + 1, quantityToSell) == stock)
  {
    var spice := order[i];
    assert spice !in order[..i];
    SoldUpToEntry(start, order, i, quantityToSell, spice);
    var q := quantityToSell(spice, stock.Get(spice));
    if q <= 0 {
      SameEntries(stock.Put(spice, stock.Get(spice)), stock);
    }
  }

  lemma SaleStockDone(order: seq<Spice>, start: Table, quantityToSell: (Spice, Int32) -> Int32)
    requires IsKeyOrder(order)
    ensures SoldUpTo(start, order, |order|, quantityToSell) == StockAfterSale(start, quantityToSell)
  {
    var sold := SoldUpTo(start, order, |order|, quantityToSell);
    forall s ensures sold.Get(s) == StockAfterSale(start, quantityToSell).Get(s) {
      SoldUpToEntry(start, order, |order|, quantityToSell, s);
      assert order[..|order|] == order;
    }
    SameEntries(sold, StockAfterSale(start, quantityToSell));
  }

  /**
   * The text of `decideMarketSale`'s StringBuilder once the entries es are
   * appended: every entry followed by `;`.
   */
  function Terminated(es: seq<SaleEntry>): string {
    if es == [] then "" else Terminated(es[..|es| - 1]) + EncodeEntry(es[|es| - 1]) + ";"
  }

  /** Removing the last `;` leaves the sale decision. */
  lemma TrimmedTerminator(es: seq<SaleEntry>)
    requires es != []
    ensures var t := Terminated(es);
      |t| > 0 && t[|t| - 1] == ';' && t[..|t| - 1] == EncodeSale(es)
  {
    var joined := Join(EncodeEntries(es), ';');
    TerminatedIsJoin(es);
    assert (joined + ";")[..|joined|] == joined;
  }

  lemma {:induction false} TerminatedIsJoin(es: seq<SaleEntry>)
    requires es != []
    ensures Terminated(es) == Join(EncodeEntries(es), ';') + ";"
  {
    var init := es[..|es| - 1];
    var e := EncodeEntry(es[|es| - 1]);
    assert Terminated(es) == Terminated(init) + e + ";";
    if init != [] {
      var ps := EncodeEntries(init);
      TerminatedIsJoin(init);
      EntriesSnoc(es);
      JoinSnoc(ps, e, ';');
      assert Terminated(es) == Join(ps, ';') + [';'] + e + ";";
    } else {
      assert EncodeEntries(es) == [e];
    }
  }

  lemma EntriesSnoc(es: seq<SaleEntry>)
    requires es != []
    ensures EncodeEntries(es) == EncodeEntries(es[..|es| - 1]) + [EncodeEntry(es[|es| - 1])]
  {
  }

  lemma {:induction false} JoinSnoc(parts: seq<string>, last: string, c: char)
    requires |parts| >= 1
    ensures Join(parts + [last], c) == Join(parts, c) + [c] + last
  {
    if |parts| > 1 {
      JoinSnoc(parts[1..], last, c);
      assert (parts + [last])[1..] == parts[1..] + [last];
    } else {
      assert (parts + [last])[1..] == [last];
    }
  }

  /** After the first i keys of the order: the entries recorded so far and the stock they leave. */
  ghost predicate SaleProgress(order: seq<Spice>, i: nat, start: Table, prices: Table, quantityToSell: (Spice, Int32) -> Int32,
                               sold: seq<SaleEntry>, current: Table) {
    && i <= |order|
    && sold == SalesUpTo(order, i, start, prices, quantityToSell)
    && current == SoldUpTo(start, order, i, quantityToSell)
  }

  /** One iteration of the loop of `decideMarketSale` keeps `SaleProgress`, selling or skipping the next key. */
  lemma SaleProgressStep(order: seq<Spice>, i: nat, start: Table, prices: Table, quantityToSell: (Spice, Int32) -> Int32,
                         sold: seq<SaleEntry>, current: Table, sold': seq<SaleEntry>, current': Table)
    requires IsKeyOrder(order) && i < |order|
    requires SaleProgress(order, i, start, prices, quantityToSell, sold, current)
    requires var spice := order[i];
      var q := quantityToSell(spice, current.Get(spice));
      if q > 0 then sold' == sold + [SaleEntry(spice, q, Mul(q, prices.Get(spice)))] && current' == current.Put(spice, Sub(current.Get(spice), q))
      else sold' == sold && current' == current
    ensures SaleProgress(order, i + 1, start, prices, quantityToSell, sold', current')
  {
    SaleStockStep(order, i, start, quantityToSell, current);
  }

  /** Once every key is visited, the entries are the sale's and the stock is the stock after it. */
  lemma SaleProgressDone(order: seq<Spice>, start: Table, prices: Table, quantityToSell: (Spice, Int32) -> Int32,
                         sold: seq<SaleEntry>, current: Table)
    requires IsKeyOrder(order)
    requires SaleProgress(order, |order|, start, prices, quantityToSell, sold, current)
    ensures sold == SaleEntries(order, start, prices, quantityToSell)
    ensures current == StockAfterSale(start, quantityToSell)
  {
    SaleStockDone(order, start, quantityToSell);
  }

  /**
   * The loop of `decideMarketSale` over the keys in order: every positive
   * quantity, computed from the spice's stock before it is sold, is recorded
   * with `quantity * price` and taken from a copy of the stock.
   */
  method SellInOrder(order: seq<Spice>, start: Table, prices: Table, quantityToSell: (Spice, Int32) -> Int32)
    returns (isSelling: bool, sold: seq<SaleEntry>, current: Table)
    requires IsKeyOrder(order)
    ensures sold == SaleEntries(order, start, prices, quantityToSell)
    ensures isSelling <==> sold != []
    ensures current == StockAfterSale(start, quantityToSell)
  {
    current := start;
    isSelling := false;
    sold := [];
    var i := 0;
    while i < |order|
      invariant SaleProgress(order, i, start, prices, quantityToSell, sold, current)
      invariant isSelling <==> sold != []
    {
      ghost var sold0, current0 := sold, current;
      var spice := order[i];
      var quantity := quantityToSell(spice, current.Get(spice));
      if quantity > 0 {
        isSelling := true;
        var totalValue := Mul(quantity, prices.Get(spice));
        sold := sold + [SaleEntry(spice, quantity, totalValue)];
        current := current.Put(spice, Sub(current.Get(spice), quantity));
      }
      SaleProgressStep(order, i, start, prices, quantityToSell, sold0, current0, sold, current);
      i := i + 1;
    }
    SaleProgressDone(order, start, prices, quantityToSell, sold, current);
  }

  // ---------------------------------------------------------------- the agent

  /** The routes of `MessageHandler.action`, tested in this order. */
  datatype Route = StockAsked | PricesAnnounced | TotalRoundsAnnounced | CurrentRoundAnnounced | Ignored

  function RouteOf(m: Message): Route {
    if m.performative == Request && m.content == StockRequest then StockAsked
    else if m.performative != Inform then Ignored
    else if StartsWith(m.content, "PRICES,") then PricesAnnounced
    else if StartsWith(m.content, TotalRoundsPrefix) then TotalRoundsAnnounced
    else if StartsWith(m.content, CurrentRoundPrefix) then CurrentRoundAnnounced
    else Ignored
  }

  /** The coordinator's stock request and a price broadcast in the reference format reach the handler's matching branches. */
  lemma RoutesOfRequests(from: AgentId, prices: Table, eventText: string)
    ensures RouteOf(Message(Request, from, StockRequest)) == StockAsked
    ensures RouteOf(Message(Inform, from, EncodeBroadcast(prices, eventText))) == PricesAnnounced
  {
    assert EncodeBroadcast(prices, eventText)[..7] == "PRICES,";
  }

  /** Round-number notices in the reference format reach the handler's matching branches. */
  lemma RoutesOfRoundNumbers(from: AgentId, n: Int32)
    ensures RouteOf(Message(Inform, from, EncodeRoundNumber(TotalRoundsPrefix, n))) == TotalRoundsAnnounced
    ensures RouteOf(Message(Inform, from, EncodeRoundNumber(CurrentRoundPrefix, n))) == CurrentRoundAnnounced
  {
    var total, current := EncodeRoundNumber(TotalRoundsPrefix, n), EncodeRoundNumber(CurrentRoundPrefix, n);
    assert total[..|TotalRoundsPrefix|] == TotalRoundsPrefix && total[0] == 'T';
    assert current[..|CurrentRoundPrefix|] == CurrentRoundPrefix && current[0] == 'C';
  }

  // ---------------------------------------------------------------- the handler on values

  /** The fields of a merchant as one value: stock, prices, pending event and the two round numbers. */
  datatype Fields = Fields(stock: Table, prices: Table, event: EventNote, totalRounds: Int32, currentRound: Int32)

  /** What a handler step sends and leaves, with the fields the merchant ends with. */
  datatype Turn = Turn(step: Step, after: Fields)

  /**
   * `applyStormImpact` on the fields: a pending storm on a spice halves that
   * spice's stock (floor 0) and clears the event; None where Java throws
   * because the target names no spice.
   */
  function StormImpact(f: Fields): Option<Fields> {
    if f.event.tag == Some(Storm) && f.event.target.Some? then
      match FromName(f.event.target.value)
      case None => None
      case Some(t) => Some(f.(stock := f.stock.Put(t, StormStock(f.stock.Get(t))), event := EventNote(None, None)))
    else Some(f)
  }

  /** A storm touches only the stock of its target and the event; nothing changes without one. */
  lemma StormImpactEffect(f: Fields)
    ensures var storm := f.event.tag == Some(Storm) && f.event.target.Some?;
      && (StormImpact(f).None? <==> storm && FromName(f.event.target.value).None?)
      && (!storm ==> StormImpact(f) == Some(f))
      && (storm && StormImpact(f).Some? ==>
            var t := FromName(f.event.target.value).value;
            var g := StormImpact(f).value;
            && g.event == EventNote(None, None)
            && g.stock.Get(t) == StormStock(f.stock.Get(t))
            && (forall s :: s != t ==> g.stock.Get(s) == f.stock.Get(s))
            && g.prices == f.prices && g.totalRounds == f.totalRounds && g.currentRound == f.currentRound)
  {
  }

  /**
   * `processBroadcast` on the fields: read prices and event, negotiate from the
   * stock, then decide the sale on the stock the negotiation left and send it
   * to the broadcaster.
   */
  function BroadcastStep(f: Fields, m: Message, env: Env, inbox: seq<Message>): Turn
    requires IsKeyOrder(env.order)
  {
    match DecodeBroadcast(m.content)
    case None => Turn(Step(Threw, [], inbox), f)
    case Some(b) =>
      var read := f.(prices := b.prices, event := b.event);
      var r := Negotiate(f.stock, env, inbox);
      if r.outcome != Completed then Turn(Step(r.outcome, r.sent, r.rest), read.(stock := r.stock))
      else
        var es := SaleEntries(env.order, r.stock, b.prices, env.utility.quantityToSell);
        Turn(Step(Completed, r.sent + [Sent(Inform, [m.sender], Some(EncodeSale(es)))], r.rest),
                read.(stock := StockAfterSale(r.stock, env.utility.quantityToSell)))
  }

  /**
   * A broadcast that does not decode changes nothing; one that decodes sets
   * the prices and the pending event to what it carries, leaves the round
   * numbers, and, after a completed negotiation, answers with the sale
   * decision taken at the new prices.
   */
  lemma BroadcastStepEffect(f: Fields, m: Message, env: Env, inbox: seq<Message>)
    requires IsKeyOrder(env.order)
    ensures var h := BroadcastStep(f, m, env, inbox);
      && h.after.totalRounds == f.totalRounds && h.after.currentRound == f.currentRound
      && (DecodeBroadcast(m.content).None? ==> h.step == Step(Threw, [], inbox) && h.after == f)
      && (DecodeBroadcast(m.content).Some? ==>
            var b := DecodeBroadcast(m.content).value;
            var r := Negotiate(f.stock, env, inbox);
            && h.after.prices == b.prices && h.after.event == b.event
            && (r.outcome != Completed ==> h.step == Step(r.outcome, r.sent, r.rest) && h.after.stock == r.stock)
            && (r.outcome == Completed ==>
                  && h.step.outcome == Completed && h.step.rest == r.rest
                  && h.step.sent[..|r.sent|] == r.sent && |h.step.sent| == |r.sent| + 1
                  && h.step.sent[|r.sent|] == Sent(Inform, [m.sender], Some(EncodeSale(SaleEntries(env.order, r.stock, b.prices, env.utility.quantityToSell))))
                  && h.after.stock == StockAfterSale(r.stock, env.utility.quantityToSell)))
  {
  }

  /** `MessageHandler.action` on the fields, for the message `receive` returned (None: nothing arrived). */
  function HandleStep(f: Fields, msg: Option<Message>, env: Env, inbox: seq<Message>): Turn
    requires IsKeyOrder(env.order)
  {
    if msg.None? then Turn(Step(Completed, [], inbox), f)
    else
      var m := msg.value;
      match RouteOf(m)
      case StockAsked =>
        (match StormImpact(f)
         case None => Turn(Step(Threw, [], inbox), f)
         case Some(g) => Turn(Step(Completed, [Sent(Inform, [m.sender], Some(EncodeStock(g.stock)))], inbox), g))
      case PricesAnnounced => BroadcastStep(f, m, env, inbox)
      case TotalRoundsAnnounced =>
        (match DecodeRoundNumber(m.content)
         case None => Turn(Step(Threw, [], inbox), f)
         case Some(n) => Turn(Step(Completed, [Sent(Confirm, [m.sender], Some(Ack))], inbox), f.(totalRounds := n)))
      case CurrentRoundAnnounced =>
        (match DecodeRoundNumber(m.content)
         case None => Turn(Step(Threw, [], inbox), f)
         case Some(n) => Turn(Step(Completed, [Sent(Confirm, [m.sender], Some(Ack))], inbox), f.(currentRound := n)))
      case Ignored => Turn(Step(Completed, [], inbox), f)
  }

  /**
   * The stock request: the storm is applied first and the reply carries the
   * stock it leaves; prices and round numbers stay; an exception changes
   * nothing and sends nothing.
   */
  lemma HandleStockRequest(f: Fields, m: Message, env: Env, inbox: seq<Message>)
    requires IsKeyOrder(env.order) && RouteOf(m) == StockAsked
    ensures var h := HandleStep(f, Some(m), env, inbox);
      && h.step.rest == inbox
      && h.after.prices == f.prices && h.after.totalRounds == f.totalRounds && h.after.currentRound == f.currentRound
      && (StormImpact(f).None? ==> h.step.outcome == Threw && h.step.sent == [] && h.after == f)
      && (StormImpact(f).Some? ==>
            && h.after == StormImpact(f).value
            && h.step.outcome == Completed
            && h.step.sent == [Sent(Inform, [m.sender], Some(EncodeStock(h.after.stock)))]
            && DecodeStock(EncodeStock(h.after.stock)) == Some(h.after.stock))
  {
    if StormImpact(f).Some? {
      StockRoundTrip(StormImpact(f).value.stock);
    }
  }

  /**
   * The two round-number notices: the matching number is set and
   * acknowledged; everything else stays; content that does not parse throws
   * and changes nothing.
   */
  lemma HandleRoundNumber(f: Fields, m: Message, env: Env, inbox: seq<Message>)
    requires IsKeyOrder(env.order)
    requires RouteOf(m) == TotalRoundsAnnounced || RouteOf(m) == CurrentRoundAnnounced
    ensures var h := HandleStep(f, Some(m), env, inbox);
      var n := DecodeRoundNumber(m.content);
      && h.step.rest == inbox
      && h.after.stock == f.stock && h.after.prices == f.prices && h.after.event == f.event
      && (n.None? ==> h.step.outcome == Threw && h.step.sent == [] && h.after == f)
      && (n.Some? ==>
            && h.step == Step(Completed, [Sent(Confirm, [m.sender], Some(Ack))], inbox)
            && (RouteOf(m) == TotalRoundsAnnounced ==> h.after.totalRounds == n.value && h.after.currentRound == f.currentRound)
            && (RouteOf(m) == CurrentRoundAnnounced ==> h.after.currentRound == n.value && h.after.totalRounds == f.totalRounds))
  {
  }

  /** No message, or one no branch matches, changes nothing and sends nothing. */
  lemma HandleNothing(f: Fields, msg: Option<Message>, env: Env, inbox: seq<Message>)
    requires IsKeyOrder(env.order)
    requires msg.None? || RouteOf(msg.value) == Ignored
    ensures HandleStep(f, msg, env, inbox) == Turn(Step(Completed, [], inbox), f)
  {
  }

  class MerchantAgent {
    var stock: Table
    var prices: Table
    var nextRoundEvent: Option<EventTag>
    var nextRoundTarget: Option<string>
    var totalRounds: Int32
    var currentRound: Int32

    /** `setup`: the initial stock and the zero prices; no event pending, no rounds known. */
    constructor ()
      ensures stock == InitialStock && prices == InitialPrices
      ensures nextRoundEvent.None? && nextRoundTarget.None?
      ensures totalRounds == 0 && currentRound == 0
    {
      stock := InitialStock;
      prices := InitialPrices;
      nextRoundEvent, nextRoundTarget := None, None;
      totalRounds, currentRound := 0, 0;
    }

    /** The fields as one value. */
    function State(): Fields
      reads this
    {
      Fields(stock, prices, EventNote(nextRoundEvent, nextRoundTarget), totalRounds, currentRound)
    }

    /** `getStockAsCommaSeparatedString`. */
    function StockString(): (s: string)
      reads this
      ensures DecodeStock(s) == Some(stock)
    {
      StockRoundTrip(stock);
      EncodeStock(stock)
    }

    /**
     * `applyStormImpact`: with a storm pending on a target, halve the target's
     * stock (floor 0) and clear the event; a target that is not a spice makes
     * Java throw. Without a pending storm nothing changes.
     */
    method ApplyStormImpact() returns (ok: bool)
      modifies this`stock, this`nextRoundEvent, this`nextRoundTarget
      ensures ok == StormImpact(old(State())).Some?
      ensures State() == if ok then StormImpact(old(State())).value else old(State())
    {
      ok := true;
      if nextRoundEvent == Some(Storm) && nextRoundTarget.Some? {
        var target := FromName(nextRoundTarget.value);
        if target.None? {
          return false;
        }
        var reduced := StormStock(stock.Get(target.value));
        stock := stock.Put(target.value, reduced);
        nextRoundEvent, nextRoundTarget := None, None;
      }
    }

    /** `finalizeTrade`: apply the trade a message carries to this merchant's stock only. */
    method FinalizeTrade(content: string) returns (ok: bool)
      modifies this`stock
      ensures ok == DecodeTrade(content).Some?
      ensures stock == if ok then ApplyTrade(old(stock), DecodeTrade(content).value) else old(stock)
    {
      var trade := DecodeTrade(content);
      if trade.None? {
        return false;
      }
      var t := trade.value;
      ghost var start := stock;
      stock := stock.Put(t.sell, Sub(stock.Get(t.sell), t.sellQty));
      ghost var afterSell := stock;
      stock := stock.Put(t.buy, Add(stock.Get(t.buy), t.buyQty));
      assert stock == ApplyTrade(start, t) by {
        assert afterSell == start.Put(t.sell, Sub(start.Get(t.sell), t.sellQty));
      }
      ok := true;
    }

    /** The first half of `processBroadcast`: overwrite the four prices and the pending event. */
    method ReadBroadcast(content: string) returns (ok: bool)
      modifies this`prices, this`nextRoundEvent, this`nextRoundTarget
      ensures ok == DecodeBroadcast(content).Some?
      ensures ok ==> var b := DecodeBroadcast(content).value;
        prices == b.prices && nextRoundEvent == b.event.tag && nextRoundTarget == b.event.target
      ensures !ok ==>
        prices == old(prices) && nextRoundEvent == old(nextRoundEvent) && nextRoundTarget == old(nextRoundTarget)
    {
      var b := DecodeBroadcast(content);
      if b.None? {
        return false;
      }
      prices := b.value.prices;
      nextRoundEvent := b.value.event.tag;
      nextRoundTarget := b.value.event.target;
      ok := true;
    }

    /**
     * `decideMarketSale`: sell in key order (`SellInOrder`), write the stock
     * back, and answer `"HOLD"` when nothing was sold, else the builder's
     * text without its final `;`.
     */
    method DecideMarketSale(order: seq<Spice>, quantityToSell: (Spice, Int32) -> Int32) returns (decision: string)
      requires IsKeyOrder(order)
      modifies this`stock
      ensures decision == EncodeSale(SaleEntries(order, old(stock), prices, quantityToSell))
      ensures stock == StockAfterSale(old(stock), quantityToSell)
    {
      var isSelling, sold, current := SellInOrder(order, stock, prices, quantityToSell);
      stock := current;
      if !isSelling {
        return Hold;
      }
      decision := Terminated(sold);
      TrimmedTerminator(sold);
      if |decision| > 0 && decision[|decision| - 1] == ';' {
        decision := decision[..|decision| - 1];
      }
    }

    /**
     * `proposeTrade`: the broadcast, the collection loop over the inbox and,
     * after a real proposal, the wait for one answer.
     */
    method ProposeTrade(env: Env, inbox: seq<Message>) returns (step: Step)
      requires IsKeyOrder(env.order)
      modifies this`stock
      ensures var r := Negotiate(old(stock), env, inbox);
        step == Step(r.outcome, r.sent, r.rest) && stock == r.stock
    {
      var proposal := ChooseProposal(stock, env);
      var merchants := Receivers(env.merchants);
      var sent := [Sent(Propose, merchants, Some(ProposalContent(proposal)))];
      var collected := ReceiveProposals(inbox, |merchants|, Answerer(env.utility.accept));
      sent := sent + collected.replies;
      var rest := collected.rest;
      if collected.outcome != Completed {
        return Step(collected.outcome, sent, rest);
      }
      if proposal.Some? {
        if rest == [] {
          return Step(Stalled, sent, []);
        }
        var answer := rest[0];
        rest := rest[1..];
        if answer.performative == AcceptProposal {
          var ok := FinalizeTrade(answer.content);
          if !ok {
            return Step(Threw, sent, rest);
          }
        }
      }
      step := Step(Completed, sent, rest);
    }

    /**
     * `processBroadcast`: read prices and event, negotiate, decide the sale
     * and send it to the broadcast's sender.
     */
    method ProcessBroadcast(m: Message, env: Env, inbox: seq<Message>) returns (step: Step)
      requires IsKeyOrder(env.order)
      modifies this`stock, this`prices, this`nextRoundEvent, this`nextRoundTarget
      ensures var h := BroadcastStep(old(State()), m, env, inbox);
        step == h.step && State() == h.after
    {
      ghost var start := State();
      var ok := ReadBroadcast(m.content);
      if !ok {
        return Step(Threw, [], inbox);
      }
      ghost var read := start.(prices := prices, event := EventNote(nextRoundEvent, nextRoundTarget));
      assert State() == read;
      var negotiation := ProposeTrade(env, inbox);
      ghost var r := Negotiate(start.stock, env, inbox);
      assert State() == read.(stock := r.stock);
      if negotiation.outcome != Completed {
        return negotiation;
      }
      var saleDecision := DecideMarketSale(env.order, env.utility.quantityToSell);
      assert State() == read.(stock := StockAfterSale(r.stock, env.utility.quantityToSell));
      step := Step(Completed, negotiation.sent + [Sent(Inform, [m.sender], Some(saleDecision))], negotiation.rest);
    }

    /**
     * `MessageHandler.action` on the message `receive` returned (None: the
     * behaviour blocks and nothing happens).
     */
    method Action(msg: Option<Message>, env: Env, inbox: seq<Message>) returns (step: Step)
      requires IsKeyOrder(env.order)
      modifies this
      ensures var h := HandleStep(old(State()), msg, env, inbox);
        step == h.step && State() == h.after
    {
      if msg.None? {
        return Step(Completed, [], inbox);
      }
      var m := msg.value;
      match RouteOf(m)
      case StockAsked =>
        var ok := ApplyStormImpact();
        if !ok {
          return Step(Threw, [], inbox);
        }
        step := Step(Completed, [Sent(Inform, [m.sender], Some(StockString()))], inbox);
      case PricesAnnounced =>
        step := ProcessBroadcast(m, env, inbox);
      case TotalRoundsAnnounced =>
        var n := DecodeRoundNumber(m.content);
        if n.None? {
          return Step(Threw, [], inbox);
        }
        totalRounds := n.value;
        step := Step(Completed, [Sent(Confirm, [m.sender], Some(Ack))], inbox);
      case CurrentRoundAnnounced =>
        var n := DecodeRoundNumber(m.content);
        if n.None? {
          return Step(Threw, [], inbox);
        }
        currentRound := n.value;
        step := Step(Completed, [Sent(Confirm, [m.sender], Some(Ack))], inbox);
      case Ignored =>
        step := Step(Completed, [], inbox);
    }
  }
}

=== FILE: messages.dfy ===
/**
 * ACL messages as the two agents see them: an incoming message is a
 * performative, a sender and a content string; an outgoing one is what a
 * `send` call puts on the wire. Blocking receives read from a given inbox.
 */
module Messages {
  import opened Wrappers

  type AgentId = string

  /** The ACL performatives the agents test for; every other one is OtherPerformative. */
  datatype Performative =
    | Request
    | Inform
    | Propose
    | AcceptProposal
    | RejectProposal
    | Confirm
    | OtherPerformative

  datatype Message = Message(performative: Performative, sender: AgentId, content: string)

  /** One `send`: its performative, its receivers in order and its content (None where it was never set). */
  datatype Sent = Sent(performative: Performative, receivers: seq<AgentId>, content: Option<string>)

  /**
   * How a behaviour step ends: normally, blocked forever in a `blockingReceive`
   * because the inbox ran out, or with an exception thrown by the Java code.
   */
  datatype Outcome = Completed | Stalled | Threw
}

=== FILE: protocol.dfy ===
/**
 * The content strings the agents exchange, with a decoder for each encoder:
 * the stock reply, the trade proposal, the sale decision, the price and event
 * broadcast, and the round-number announcements.
 */
module Protocol {
  import opened Wrappers
  import opened JavaInt
  import opened JavaText
  import opened Spices

  /** The four entries of a table as decimal strings, in wire order. */
  function Fields(t: Table): (fs: seq<string>)
    ensures |fs| == 4
    ensures forall i :: 0 <= i < 4 ==> fs[i] == IntToString(t.Get(WireOrder[i]))
  {
    [IntToString(t.cravinho), IntToString(t.cinnamon), IntToString(t.nutmeg), IntToString(t.cardamom)]
  }

  lemma {:induction false} FieldsAvoid(t: Table, c: char)
    requires !IsDigit(c) && c != '-'
    ensures Avoids(Fields(t), c)
  {
    forall p | p in Fields(t) ensures c !in p {
      var i :| 0 <= i < 4 && Fields(t)[i] == p;
    }
  }

  /** A table from four parsed fields; None if any of them failed to parse. */
  function TableOf(a: Option<Int32>, b: Option<Int32>, c: Option<Int32>, d: Option<Int32>): (r: Option<Table>)
    ensures r.Some? <==> a.Some? && b.Some? && c.Some? && d.Some?
    ensures r.Some? ==> r.value == Table(a.value, b.value, c.value, d.value)
  {
    if a.Some? && b.Some? && c.Some? && d.Some? then Some(Table(a.value, b.value, c.value, d.value)) else None
  }

  // ---------------------------------------------------------------- stock reply

  /** The coordinator's request for every merchant's stock. */
  const StockRequest: string := "STOCK"

  /** The merchant's stock reply: `"q1,q2,q3,q4"` in wire order. */
  function EncodeStock(stock: Table): (s: string)
    ensures Split(s, ',') == Fields(stock)
  {
    FieldsAvoid(stock, ',');
    SplitOfJoin(Fields(stock), ',');
    Join(Fields(stock), ',')
  }

  /**
   * The coordinator's reading of a stock reply: split on `,`, parse the first
   * four fields (later ones are ignored); None where Java throws.
   */
  function DecodeStock(content: string): (r: Option<Table>)
  {
    var f := Split(content, ',');
    if |f| < 4 then None
    else TableOf(ParseInt(f[0]), ParseInt(f[1]), ParseInt(f[2]), ParseInt(f[3]))
  }

  /** Every stock reply the merchant writes is read back by the coordinator as the same four quantities. */
  lemma {:induction false} StockRoundTrip(stock: Table)
    ensures DecodeStock(EncodeStock(stock)) == Some(stock)
  {
    ParseIntOfToString(stock.cravinho);
    ParseIntOfToString(stock.cinnamon);
    ParseIntOfToString(stock.nutmeg);
    ParseIntOfToString(stock.cardamom);
  }

  // ---------------------------------------------------------------- trade proposal

  /** A one-for-one spice trade as proposed: the proposer gives sellQty of sell for buyQty of buy. */
  datatype Trade = Trade(sell: Spice, sellQty: Int32, buy: Spice, buyQty: Int32)

  const NoTrade: string := "NO_TRADE"

  function TradeFields(t: Trade): seq<string> {
    [Name(t.sell), IntToString(t.sellQty), Name(t.buy), IntToString(t.buyQty)]
  }

  /** The proposal content `"sell,q,buy,q"`. */
  function EncodeTrade(t: Trade): (s: string)
    ensures s != NoTrade
  {
    NameIsWord(t.sell);
    NameIsWord(t.buy);
    SeparatorInJoin(TradeFields(t), ',');
    Join(TradeFields(t), ',')
  }

  /**
   * The reading of a proposal (or of the accept that echoes it): four or more
   * fields, a known spice name in fields 0 and 2 and an `int` in fields 1
   * and 3. None where Java throws: a short split, a NumberFormatException, or
   * the NullPointerException of unboxing the `get` of an unknown key.
   */
  function DecodeTrade(content: string): (r: Option<Trade>)
  {
    var f := Split(content, ',');
    if |f| < 4 then None
    else
      match (FromName(f[0]), ParseInt(f[1]), FromName(f[2]), ParseInt(f[3]))
      case (Some(s), Some(q), Some(b), Some(p)) => Some(Trade(s, q, b, p))
      case _ => None
  }

  lemma {:induction false} TradeFieldsAvoid(t: Trade, c: char)
    requires !IsDigit(c) && c != '-' && !IsLetter(c)
    ensures Avoids(TradeFields(t), c)
  {
    NameIsWord(t.sell);
    NameIsWord(t.buy);
  }

  /** Every proposal a merchant writes decodes to the same trade. */
  lemma {:induction false} TradeRoundTrip(t: Trade)
    ensures DecodeTrade(EncodeTrade(t)) == Some(t)
  {
    TradeFieldsAvoid(t, ',');
    SplitOfJoin(TradeFields(t), ',');
    ParseIntOfToString(t.sellQty);
    ParseIntOfToString(t.buyQty);
  }

  // ---------------------------------------------------------------- sale decision

  /** One line of a sale decision: a spice, the quantity sold and its proceeds. */
  datatype SaleEntry = SaleEntry(spice: Spice, quantity: Int32, proceeds: Int32)

  const Hold: string := "HOLD"

  function EntryFields(e: SaleEntry): seq<string> {
    [Name(e.spice), IntToString(e.quantity), IntToString(e.proceeds)]
  }

  /** `"spice,q,proceeds"`. */
  function EncodeEntry(e: SaleEntry): string {
    Join(EntryFields(e), ',')
  }

  function EncodeEntries(es: seq<SaleEntry>): (parts: seq<string>)
    ensures |parts| == |es|
    ensures forall i :: 0 <= i < |es| ==> parts[i] == EncodeEntry(es[i])
  {
    seq(|es|, i requires 0 <= i < |es| => EncodeEntry(es[i]))
  }

  /** The sale decision: `"HOLD"` when nothing is sold, else the entries joined by `;`. */
  function EncodeSale(es: seq<SaleEntry>): string {
    if es == [] then Hold else Join(EncodeEntries(es), ';')
  }

  function DecodeEntry(part: string): (r: Option<SaleEntry>)
  {
    var f := Split(part, ',');
    if |f| != 3 then None
    else
      match (FromName(f[0]), ParseInt(f[1]), ParseInt(f[2]))
      case (Some(s), Some(q), Some(v)) => Some(SaleEntry(s, q, v))
      case _ => None
  }

  /** Decodes every part with decode; None as soon as one part does not decode. */
  function DecodeAll(parts: seq<string>, decode: string -> Option<SaleEntry>): (r: Option<seq<SaleEntry>>)
    ensures r.Some? ==> |r.value| == |parts|
  {
    if parts == [] then Some([])
    else
      match decode(parts[0])
      case None => None
      case Some(e) =>
        match DecodeAll(parts[1..], decode)
        case None => None
        case Some(es) => Some([e] + es)
  }

  /** The parts decode together to the entries exactly when each part decodes to the matching entry. */
  lemma {:induction false} DecodeAllOf(parts: seq<string>, decode: string -> Option<SaleEntry>, es: seq<SaleEntry>)
    ensures DecodeAll(parts, decode) == Some(es)
        <==> |parts| == |es| && forall i :: 0 <= i < |parts| ==> decode(parts[i]) == Some(es[i])
  {
    if parts != [] && es != [] {
      DecodeAllOf(parts[1..], decode, es[1..]);
      assert es == [es[0]] + es[1..];
      if |parts| == |es| && forall i :: 0 <= i < |parts| ==> decode(parts[i]) == Some(es[i]) {
        assert decode(parts[0]) == Some(es[0]);
        assert forall i :: 0 <= i < |parts[1..]| ==> decode(parts[1..][i]) == Some(es[1..][i]) by {
          forall i | 0 <= i < |parts[1..]| ensures decode(parts[1..][i]) == Some(es[1..][i]) {
            assert parts[1..][i] == parts[i + 1];
          }
        }
      }
      if DecodeAll(parts, decode) == Some(es) {
        forall i | 0 <= i < |parts| ensures decode(parts[i]) == Some(es[i]) {
          if i > 0 {
            assert parts[1..][i - 1] == parts[i];
          }
        }
      }
    }
  }

  /** A reading of a sale decision that inverts the merchant's writing of it; neither agent's code reads one. */
  function DecodeSale(s: string): (r: Option<seq<SaleEntry>>)
  {
    if s == Hold then Some([]) else DecodeAll(Split(s, ';'), DecodeEntry)
  }

  lemma {:induction false} EntryRoundTrip(e: SaleEntry)
    ensures DecodeEntry(EncodeEntry(e)) == Some(e)
    ensures ';' !in EncodeEntry(e) && ',' in EncodeEntry(e) && EncodeEntry(e) != ""
  {
    NameIsWord(e.spice);
    assert Avoids(EntryFields(e), ',');
    assert Avoids(EntryFields(e), ';');
    SplitOfJoin(EntryFields(e), ',');
    SeparatorInJoin(EntryFields(e), ',');
    JoinAvoids(EntryFields(e), ',', ';');
    ParseIntOfToString(e.quantity);
    ParseIntOfToString(e.proceeds);
  }

  lemma {:induction false} JoinAvoids(parts: seq<string>, c: char, d: char)
    requires |parts| >= 1 && Avoids(parts, d) && c != d
    ensures d !in Join(parts, c)
  {
    if |parts| > 1 {
      JoinAvoids(parts[1..], c, d);
    }
  }

  lemma EntriesRoundTrip(es: seq<SaleEntry>)
    ensures DecodeAll(EncodeEntries(es), DecodeEntry) == Some(es)
  {
    var parts := EncodeEntries(es);
    forall i | 0 <= i < |parts| ensures DecodeEntry(parts[i]) == Some(es[i]) {
      EntryRoundTrip(es[i]);
    }
    DecodeAllOf(parts, DecodeEntry, es);
  }

  /** Every sale decision decodes to the entries it was built from; `"HOLD"` to no entries. */
  lemma {:induction false} SaleRoundTrip(es: seq<SaleEntry>)
    ensures DecodeSale(EncodeSale(es)) == Some(es)
  {
    if es != [] {
      var parts := EncodeEntries(es);
      EntriesAvoid(es);
      SaleIsNotHold(es);
      SplitOfJoin(parts, ';');
      EntriesRoundTrip(es);
    }
  }

  /** No encoded entry holds `;` or is empty. */
  lemma EntriesAvoid(es: seq<SaleEntry>)
    ensures Avoids(EncodeEntries(es), ';')
    ensures forall i :: 0 <= i < |es| ==> EncodeEntries(es)[i] != ""
  {
    var parts := EncodeEntries(es);
    forall i | 0 <= i < |es| ensures ';' !in parts[i] && parts[i] != "" {
      EntryRoundTrip(es[i]);
    }
  }

  /** A non-empty sale decision holds a `,`, so it is never `"HOLD"`. */
  lemma SaleIsNotHold(es: seq<SaleEntry>)
    requires es != []
    ensures Join(EncodeEntries(es), ';') != Hold
  {
    var parts := EncodeEntries(es);
    EntryRoundTrip(es[0]);
    JoinStartsWithFirst(parts, ';');
    var k :| 0 <= k < |parts[0]| && parts[0][k] == ',';
    assert Join(parts, ';')[k] == ',';
    assert ',' !in Hold;
  }

  lemma JoinStartsWithFirst(parts: seq<string>, c: char)
    requires |parts| >= 1
    ensures |parts[0]| <= |Join(parts, c)| && Join(parts, c)[..|parts[0]|] == parts[0]
  {
    if |parts| > 1 {
      assert Join(parts, c) == parts[0] + ([c] + Join(parts[1..], c));
    }
  }

  // ---------------------------------------------------------------- price and event broadcast

  /** The event tags the merchant keeps in `nextRoundEvent`. */
  datatype EventTag = Storm | SultanTax | TradeRoute

  /** The pair (`nextRoundEvent`, `nextRoundTarget`); None stands for Java's null. */
  datatype EventNote = EventNote(tag: Option<EventTag>, target: Option<string>)

  datatype Broadcast = Broadcast(prices: Table, event: EventNote)

  const StormPrefix: string := "A storm destroyed"
  const SultanTaxPrefix: string := "The Sultan has imposed a new tax"
  const TradeRoutePrefix: string := "A new trade route"

  /** No text starts with two of the three event prefixes. */
  lemma PrefixesExclusive(text: string)
    ensures !(StartsWith(text, StormPrefix) && StartsWith(text, SultanTaxPrefix))
    ensures !(StartsWith(text, StormPrefix) && StartsWith(text, TradeRoutePrefix))
    ensures !(StartsWith(text, SultanTaxPrefix) && StartsWith(text, TradeRoutePrefix))
  {
    if StartsWith(text, StormPrefix) {
      assert text[0] == StormPrefix[0] == 'A' && text[2] == StormPrefix[2] == 's';
    }
    if StartsWith(text, TradeRoutePrefix) {
      assert text[0] == TradeRoutePrefix[0] == 'A' && text[2] == TradeRoutePrefix[2] == 'n';
    }
  }

  /**
   * The event classification of a broadcast, by prefix, in this order: a
   * storm (target: the 4th space-separated word), the Sultan's tax (no
   * target), a trade route (target: the 9th word), anything else (no event).
   * None where the target word is missing and Java throws.
   */
  function ClassifyEvent(text: string): (r: Option<EventNote>)
    ensures r.Some? && r.value.tag.Some? && r.value.tag.value != SultanTax ==> r.value.target.Some?
    ensures r.Some? && (r.value.tag.None? || r.value.tag == Some(SultanTax)) ==> r.value.target.None?
    ensures r.Some? ==> (r.value.tag == Some(Storm) <==> StartsWith(text, StormPrefix))
    ensures r.Some? ==> (r.value.tag == Some(TradeRoute) <==> StartsWith(text, TradeRoutePrefix))
    ensures StartsWith(text, SultanTaxPrefix) ==> r == Some(EventNote(Some(SultanTax), None))
    ensures !StartsWith(text, StormPrefix) && !StartsWith(text, SultanTaxPrefix) && !StartsWith(text, TradeRoutePrefix)
      ==> r == Some(EventNote(None, None))
    ensures r.None? <==> || (StartsWith(text, StormPrefix) && |Split(text, ' ')| < 4)
                         || (StartsWith(text, TradeRoutePrefix) && |Split(text, ' ')| < 9)
  {
    PrefixesExclusive(text);
    if StartsWith(text, StormPrefix) then
      var words := Split(text, ' ');
      if |words| < 4 then None else Some(EventNote(Some(Storm), Some(words[3])))
    else if StartsWith(text, SultanTaxPrefix) then
      Some(EventNote(Some(SultanTax), None))
    else if StartsWith(text, TradeRoutePrefix) then
      var words := Split(text, ' ');
      if |words| < 9 then None else Some(EventNote(Some(TradeRoute), Some(words[8])))
    else
      Some(EventNote(None, None))
  }

  /**
   * The merchant's reading of `"PRICES,p1,p2,p3,p4|EVENT,<text>"`: split on
   * `|`; from the first part remove every `"PRICES,"`, trim, split on `,` and
   * parse the first four trimmed fields; from the second part remove every
   * `"EVENT,"`, trim, and classify. None where Java throws.
   */
  function DecodeBroadcast(content: string): (r: Option<Broadcast>)
  {
    var parts := Split(content, '|');
    if |parts| < 2 then None
    else
      var pricesPart := Trim(RemoveAll(parts[0], "PRICES,"));
      var eventPart := Trim(RemoveAll(parts[1], "EVENT,"));
      var f := Split(pricesPart, ',');
      if |f| < 4 then None
      else
        match (TableOf(ParseInt(Trim(f[0])), ParseInt(Trim(f[1])), ParseInt(Trim(f[2])), ParseInt(Trim(f[3]))),
               ClassifyEvent(eventPart))
        case (Some(prices), Some(event)) => Some(Broadcast(prices, event))
        case _ => None
  }

  /** A broadcast in the format the merchant's reader expects, for a price table and an event text. */
  function EncodeBroadcast(prices: Table, eventText: string): string {
    "PRICES," + Join(Fields(prices), ',') + "|EVENT," + eventText
  }

  /**
   * A broadcast decodes to its prices and to the classification of its event
   * text, provided the text has no `|`, no `"EVENT,"` and no surrounding blanks.
   */
  lemma {:induction false} BroadcastRoundTrip(prices: Table, eventText: string)
    requires '|' !in eventText && !Mentions(eventText, "EVENT,") && IsTrimmed(eventText)
    ensures ClassifyEvent(eventText).Some? ==>
      DecodeBroadcast(EncodeBroadcast(prices, eventText)) == Some(Broadcast(prices, ClassifyEvent(eventText).value))
    ensures ClassifyEvent(eventText).None? ==> DecodeBroadcast(EncodeBroadcast(prices, eventText)).None?
  {
    var parts := Split(EncodeBroadcast(prices, eventText), '|');
    BroadcastParts(prices, eventText);
    PricesPartRoundTrip(prices);
    RemoveAllLeading("EVENT,", eventText);
    RemoveAllUnmentioned(eventText, "EVENT,");
    TrimOfTrimmed(eventText);
    assert Trim(RemoveAll(parts[1], "EVENT,")) == eventText;
  }

  lemma {:induction false} BroadcastParts(prices: Table, eventText: string)
    requires '|' !in eventText
    ensures Split(EncodeBroadcast(prices, eventText), '|') == ["PRICES," + Join(Fields(prices), ','), "EVENT," + eventText]
  {
    var j := Join(Fields(prices), ',');
    var p0, p1 := "PRICES," + j, "EVENT," + eventText;
    var parts := [p0, p1];
    assert parts[1..] == [p1];
    assert Join(parts, '|') == p0 + ['|'] + p1;
    assert EncodeBroadcast(prices, eventText) == p0 + ['|'] + p1;
    BroadcastPartsAvoid(prices, eventText);
    SplitOfJoin(parts, '|');
  }

  lemma BroadcastPartsAvoid(prices: Table, eventText: string)
    requires '|' !in eventText
    ensures Avoids(["PRICES," + Join(Fields(prices), ','), "EVENT," + eventText], '|')
  {
    assert '|' !in "PRICES," && '|' !in "EVENT,";
    FieldsAvoid(prices, '|');
    JoinAvoids(Fields(prices), ',', '|');
  }

  lemma {:induction false} PricesPartRoundTrip(prices: Table)
    ensures var f := Split(Trim(RemoveAll("PRICES," + Join(Fields(prices), ','), "PRICES,")), ',');
      |f| == 4 && TableOf(ParseInt(Trim(f[0])), ParseInt(Trim(f[1])), ParseInt(Trim(f[2])), ParseInt(Trim(f[3]))) == Some(prices)
  {
    PricesPartUnwrapped(prices);
    FieldsAvoid(prices, ',');
    SplitOfJoin(Fields(prices), ',');
    var f := Split(Trim(RemoveAll("PRICES," + Join(Fields(prices), ','), "PRICES,")), ',');
    assert f == Fields(prices);
    ParseTrimmedInt(prices.cravinho);
    ParseTrimmedInt(prices.cinnamon);
    ParseTrimmedInt(prices.nutmeg);
    ParseTrimmedInt(prices.cardamom);
    assert ParseInt(Trim(f[0])) == Some(prices.cravinho) && ParseInt(Trim(f[1])) == Some(prices.cinnamon);
    assert ParseInt(Trim(f[2])) == Some(prices.nutmeg) && ParseInt(Trim(f[3])) == Some(prices.cardamom);
  }

  /** A decimal written by Integer.toString has nothing for `trim` to drop, and parses back. */
  lemma ParseTrimmedInt(x: Int32)
    ensures ParseInt(Trim(IntToString(x))) == Some(x)
  {
    var s := IntToString(x);
    assert IsTrimmed(s);
    TrimOfTrimmed(s);
    ParseIntOfToString(x);
  }

  lemma {:induction false} PricesPartUnwrapped(prices: Table)
    ensures Trim(RemoveAll("PRICES," + Join(Fields(prices), ','), "PRICES,")) == Join(Fields(prices), ',')
  {
    var j := Join(Fields(prices), ',');
    RemoveAllLeading("PRICES,", j);
    FieldsAvoid(prices, 'P');
    JoinAvoids(Fields(prices), ',', 'P');
    NotMentioned(j, "PRICES,");
    RemoveAllUnmentioned(j, "PRICES,");
    JoinIsTrimmed(Fields(prices));
    TrimOfTrimmed(j);
  }

  lemma {:induction false} NotMentioned(s: string, pat: string)
    requires |pat| > 0 && pat[0] !in s
    ensures !Mentions(s, pat)
    decreases |s|
  {
    if |pat| <= |s| {
      assert s[..|pat|][0] == s[0];
      NotMentioned(s[1..], pat);
    }
  }

  lemma {:induction false} JoinIsTrimmed(parts: seq<string>)
    requires |parts| >= 1 && forall p :: p in parts ==> p != "" && IsTrimmed(p)
    ensures Join(parts, ',') != "" && IsTrimmed(Join(parts, ','))
  {
    assert parts[0] in parts;
    if |parts| > 1 {
      var rest := Join(parts[1..], ',');
      assert forall p :: p in parts[1..] ==> p in parts;
      JoinIsTrimmed(parts[1..]);
      var s := parts[0] + [','] + rest;
      assert s[0] == parts[0][0];
      assert s[|s| - 1] == rest[|rest| - 1];
    }
  }

  lemma JoinOfThree(parts: seq<string>, c: char)
    requires |parts| == 3
    ensures Join(parts, c) == parts[0] + [c] + parts[1] + [c] + parts[2]
  {
    var rest := parts[1..];
    assert rest[1..] == [parts[2]];
    assert Join(rest, c) == parts[1] + [c] + parts[2];
  }

  /** A join splits at any part boundary into the join of the parts before and the join of those after. */
  lemma {:induction false} JoinSplitAt(parts: seq<string>, k: nat, c: char)
    requires 1 <= k < |parts|
    ensures Join(parts, c) == Join(parts[..k], c) + [c] + Join(parts[k..], c)
  {
    if k > 1 {
      JoinSplitAt(parts[1..], k - 1, c);
      assert parts[1..][..k - 1] == parts[..k][1..];
      assert parts[1..][k - 1..] == parts[k..];
    }
  }

  /** The words of an announcement text joined by single spaces. */
  predicate IsWords(words: seq<string>) {
    && |words| >= 1
    && words[|words| - 1] != ""
    && forall w :: w in words ==> w != "" && forall ch :: ch in w ==> ch > ' '
  }

  /** A storm text names its target as its 4th word. */
  lemma {:induction false} StormAnnouncement(words: seq<string>)
    requires IsWords(words) && |words| >= 4 && words[..3] == ["A", "storm", "destroyed"]
    ensures ClassifyEvent(Join(words, ' ')) == Some(EventNote(Some(Storm), Some(words[3])))
  {
    var text := Join(words, ' ');
    JoinSplitAt(words, 3, ' ');
    JoinOfThree(words[..3], ' ');
    assert StartsWith(text, StormPrefix);
    SplitOfJoin(words, ' ');
  }

  /** A trade-route text names its target as its 9th word. */
  lemma {:induction false} TradeRouteAnnouncement(words: seq<string>)
    requires IsWords(words) && |words| >= 9 && words[..4] == ["A", "new", "trade", "route"]
    ensures ClassifyEvent(Join(words, ' ')) == Some(EventNote(Some(TradeRoute), Some(words[8])))
  {
    var text := Join(words, ' ');
    JoinSplitAt(words, 4, ' ');
    JoinOfThree(words[1..4], ' ');
    assert words[..4][1..] == words[1..4];
    assert StartsWith(text, TradeRoutePrefix);
    assert !StartsWith(text, StormPrefix) by { assert text[2] != StormPrefix[2]; }
    assert !StartsWith(text, SultanTaxPrefix) by { assert text[0] != SultanTaxPrefix[0]; }
    SplitOfJoin(words, ' ');
  }

  // ---------------------------------------------------------------- round announcements

  const TotalRoundsPrefix: string := "TOTAL_ROUNDS"
  const CurrentRoundPrefix: string := "CURRENT_ROUND"

  /** `"<prefix>=<n>"`, the round-number notice in the format the merchant's reader expects. */
  function EncodeRoundNumber(prefix: string, n: Int32): string {
    prefix + "=" + IntToString(n)
  }

  /** `Integer.parseInt(content.split("=")[1])`; None where Java throws. */
  function DecodeRoundNumber(content: string): Option<Int32> {
    var parts := Split(content, '=');
    if |parts| < 2 then None else ParseInt(parts[1])
  }

  lemma {:induction false} RoundNumberRoundTrip(prefix: string, n: Int32)
    requires '=' !in prefix
    ensures DecodeRoundNumber(EncodeRoundNumber(prefix, n)) == Some(n)
  {
    var digits := IntToString(n);
    assert EncodeRoundNumber(prefix, n) == Join([prefix, digits], '=') by {
      assert Join([digits], '=') == digits;
    }
    SplitOfJoin([prefix, digits], '=');
    ParseIntOfToString(n);
  }
}

=== FILE: spices.dfy ===
/**
 * The closed set of four spices both agents key their HashMaps by, the tables
 * over them, and the `Stream.max` selection the merchant runs over a table.
 */
module Spices {
  import opened Wrappers
  import opened JavaInt

  datatype Spice = Cravinho | Cinnamon | Nutmeg | Cardamom

  /** The order of the fields of every stock or price list on the wire. */
  const WireOrder: seq<Spice> := [Cravinho, Cinnamon, Nutmeg, Cardamom]

  /** The HashMap key the Java code uses for each spice. */
  function Name(s: Spice): string {
    match s
    case Cravinho => "Cravinho"
    case Cinnamon => "Cinnamon"
    case Nutmeg => "Nutmeg"
    case Cardamom => "Cardamom"
  }

  predicate IsLetter(ch: char) {
    ('A' <= ch <= 'Z') || ('a' <= ch <= 'z')
  }

  /** Every key is a non-empty word of letters, so it never holds a separator of the wire formats. */
  lemma NameIsWord(s: Spice)
    ensures |Name(s)| > 0 && forall ch :: ch in Name(s) ==> IsLetter(ch)
  {
  }

  /** A `get` on a map keyed by the four names: None where Java gets null. */
  function FromName(name: string): (r: Option<Spice>)
    ensures r.Some? ==> Name(r.value) == name
    ensures forall s :: Name(s) == name ==> r == Some(s)
  {
    if name == "Cravinho" then Some(Cravinho)
    else if name == "Cinnamon" then Some(Cinnamon)
    else if name == "Nutmeg" then Some(Nutmeg)
    else if name == "Cardamom" then Some(Cardamom)
    else None
  }

  /**
   * A spice-keyed HashMap of `int` that holds all four keys, as the stock and
   * price maps always do: `Get` and `Put` are the map's `get` and `put`.
   */
  datatype Table = Table(cravinho: Int32, cinnamon: Int32, nutmeg: Int32, cardamom: Int32) {

    function Get(s: Spice): Int32 {
      match s
      case Cravinho => cravinho
      case Cinnamon => cinnamon
      case Nutmeg => nutmeg
      case Cardamom => cardamom
    }

    /** `put(s, v)`: the entry for s becomes v and every other entry is kept. */
    function Put(s: Spice, v: Int32): (t: Table)
      ensures t.Get(s) == v
      ensures forall o :: o != s ==> t.Get(o) == Get(o)
    {
      match s
      case Cravinho => this.(cravinho := v)
      case Cinnamon => this.(cinnamon := v)
      case Nutmeg => this.(nutmeg := v)
      case Cardamom => this.(cardamom := v)
    }

    /** Total over the four spices. */
    function Sum(): int {
      cravinho as int + cinnamon as int + nutmeg as int + cardamom as int
    }
  }

  /** Two tables with the same entry for every spice are the same table. */
  lemma SameEntries(a: Table, b: Table)
    requires forall s :: a.Get(s) == b.Get(s)
    ensures a == b
  {
    assert a.Get(Cravinho) == b.Get(Cravinho) && a.Get(Cinnamon) == b.Get(Cinnamon);
    assert a.Get(Nutmeg) == b.Get(Nutmeg) && a.Get(Cardamom) == b.Get(Cardamom);
  }

  /** A possible iteration order of such a HashMap's keys: every spice exactly once. */
  predicate IsKeyOrder(order: seq<Spice>) {
    && (forall s :: s in order)
    && (forall i, j :: 0 <= i < j < |order| ==> order[i] != order[j])
  }

  /**
   * `stream.max(comparator)` for a comparator that orders spices by rank: a
   * left fold with `BinaryOperator.maxBy`, which keeps the element seen first
   * when two compare equal.
   */
  function MaxBy(cands: seq<Spice>, rank: Spice -> int): (r: Option<Spice>)
    ensures r.None? <==> cands == []
    ensures r.Some? ==> r.value in cands && forall x :: x in cands ==> rank(x) <= rank(r.value)
  {
    if cands == [] then None
    else
      var last := cands[|cands| - 1];
      match MaxBy(cands[..|cands| - 1], rank)
      case None => Some(last)
      case Some(m) => if rank(m) >= rank(last) then Some(m) else Some(last)
  }

  /** Among elements of equal rank the fold returns the one it met first. */
  lemma {:induction false} MaxByKeepsFirst(cands: seq<Spice>, rank: Spice -> int, j: nat)
    requires j < |cands| && MaxBy(cands, rank).Some?
    requires rank(cands[j]) == rank(MaxBy(cands, rank).value)
    ensures MaxBy(cands, rank).value in cands[..j + 1]
  {
    var init, last := cands[..|cands| - 1], cands[|cands| - 1];
    var r := MaxBy(cands, rank).value;
    if j < |init| {
      var m := MaxBy(init, rank).value;
      assert rank(cands[j]) <= rank(m) by { assert cands[j] in init; }
      if rank(m) >= rank(last) {
        assert r == m;
        MaxByKeepsFirst(init, rank, j);
        assert init[..j + 1] == cands[..j + 1];
      } else {
        assert false;
      }
    } else {
      assert cands[..j + 1] == cands;
    }
  }
}

=== FILE: wrappers.dfy ===
/** The optional value the model returns wherever the Java code would throw. */
module Wrappers {

  datatype Option<+T> = None | Some(value: T)
}
